=== FILE: README.md ===
# SuaraNusa song-corpus pipeline, modelled in Dafny

This project models the deterministic core of `main.py`. That script builds a
corpus of Indonesian regional songs in four stages:

1. **Acquisition.** For every catalog row (a song title and its region) it
   searches a video index for `"<title> <region>"`. It keeps each hit whose
   duration text parses and is below `MAX_VIDEO_DURATION` (300 s). It
   downloads the hit's audio into `datasets/songs/<id>.mp3`, where `<id>` is
   the title the video service reports, normalised by `yt_title_clean`. It
   records one row per file obtained, carrying the search hit's own title.
2. **Conversion.** Each `.mp3` path is mapped to a `.wav` path by two chained
   `str.replace` calls. The converter runs unless that file already exists.
3. **Segmentation.** Each converted track is cut into consecutive whole
   windows of `SEGMENT_DURATION` (30 s). Window `i` goes to
   `<base>/<region>/<seg>/<seg>_segment<i+1>.wav`, where `<seg>` is the
   row's title, the search hit's title, normalised by `yt_title_clean`. A
   trailing part shorter than a window is dropped.
4. **Features.** MFCC extraction (left out; see below).

Modules, one per concern:

| file | module | models |
|---|---|---|
| `options.dfy` | `Options` | `Option`, standing for Python's `None` and for caught exceptions |
| `strings.dfy` | `Strings` | decimal digits, `str.count`, `str.split`/`join`, one-character and substring `str.replace`, subsequences |
| `title_clean.dfy` | `TitleClean` | `yt_title_clean` |
| `duration.dfy` | `Duration` | `parse_duration`, with the `strptime` field rules |
| `download.dfy` | `Download` | `download_video` and its file cache |
| `acquisition.dfy` | `Acquisition` | `search_youtube` and the `download_songs` loop |
| `wav.dfy` | `Wav` | `convert_to_wav` |
| `segments.dfy` | `Segments` | `split_songs_to_segments` |

The outside world becomes parameters:

- The search index is a function from query to hits.
- The video service is a function from URL to what `pytubefix` reports: the
  title, and whether the stream query raises, finds nothing, or finds a
  stream whose download succeeds.
- The converter is a function saying whether `ffmpeg` produced its output.
- The wav decoder is a function from path to length in milliseconds.
- The file system is the set of paths that exist. Each operation returns the
  set afterwards.

Behaviour of the code that the model follows:

- **The normaliser is not idempotent.** `yt_title_clean` collapses runs of
  `_` before it deletes the characters outside `[a-z0-9_]`. Deleting can
  therefore bring two underscores together again: `"a - b"` cleans to
  `"a__b"`, and that cleans to `"a_b"`. The model proves exactly when
  cleaning twice changes nothing: when the identifier has no `__`.
- **Every search hit is considered.** No quota limits the rows per catalog
  entry, beyond the five hits the search returns.
- **The stream query comes before the cache check.** `download_video` asks
  for the audio stream before it checks the cache. A failing query therefore
  returns `None` even when the file is already there. A query that finds no
  stream only fails when a download is actually needed.
- **Downloads and segments are keyed by different titles.** The song file is
  named after the title the video service reports. The row keeps the search
  hit's title, and the segment directory and file names are made from that.
  When the two titles differ, a track is stored under one identifier and
  segmented under another.
- **The converter's exit status is ignored.** The wav path is returned
  whether or not a file appeared.

## Model

| member | source | states |
|---|---|---|
| TitleClean.CollapseUnderscores | main.py:93 | the `_{2,}` substitution only deletes: the result is a subsequence of the input, shorter by exactly the number of underscores that follow another underscore; it leaves no `__`; it changes nothing in a string without `__`; it keeps every non-underscore character in order and the first character; the result has `_` iff the input has |
| TitleClean.StripDisallowed | main.py:93 | the `[^a-z0-9_]` deletion is a subsequence of the input whose length is the number of allowed characters, so it keeps exactly the allowed ones in order; it leaves only `[a-z0-9_]`; a character is in the result iff it was in the input and is allowed; it changes nothing in an allowed string |
| TitleClean.Clean | main.py:91-93 | an identifier is over `[a-z0-9_]`, is a subsequence of the lower-cased title with spaces read as `_`, and is no longer than the title; apart from underscores it holds exactly the lower-cased title's letters and digits, in order, so no letter or digit is ever lost |
| TitleClean.StripWithoutUnderscores | main.py:93 | deleting the characters outside `[a-z0-9_]` and deleting underscores commute |
| TitleClean.SpacesVanish | main.py:92-93 | once underscores and disallowed characters are both deleted, reading spaces as `_` first makes no difference |
| TitleClean.CleanAlphabet | main.py:91-93 | every identifier is over `[a-z0-9_]`, so it contains no `/`, `.` or space and is a plain file name |
| TitleClean.CleanFixedPoint | main.py:91-93 | a string over `[a-z0-9_]` without `__` is its own identifier |
| TitleClean.CleanTwice | main.py:91-93 | cleaning an identifier again only collapses the `__` runs the first deletion created |
| TitleClean.CleanIdempotentIff | main.py:91-93 | cleaning twice equals cleaning once iff the identifier has no `__`, in both directions |
| TitleClean.CleanNotIdempotent | main.py:91-93 | for any lower-case letters `a` and `b`, `"a - b"` cleans to `"a__b"`, which cleans to `"a_b"`, so the normaliser is not idempotent |
| Duration.ParseDuration | main.py:120-126 | a parsed duration is below one day, and below one hour unless the text has two separators; text with no separator or more than two is refused |
| Duration.ParseDurationReadsDotsAsColons | main.py:121 | `.` and `:` are interchangeable: parsing the text equals parsing it with every dot replaced by a colon |
| Duration.ParseMinSecText | main.py:120-126 | minute and second fields of one or two digits, at most 59, joined by `:` or `.`, parse to `60*m + s` |
| Duration.ParseHourMinSecText | main.py:120-126 | hour (at most 23), minute and second fields joined by two separators parse to `3600*h + 60*m + s` |
| Duration.ParseDurationSound | main.py:120-126 | every accepted text, read with colons, has the `MM:SS` or the `HH:MM:SS` layout with in-range fields, and the value is that layout's seconds |
| Duration.ParseDurationCharacters | main.py:120-126 | accepted text holds only digits, `:` and `.` |
| Duration.ScenarioDurations | main.py:120-126 | `"2:10"`, `"6:05"` and `"1:50"` parse to 130, 365 and 110 |
| Duration.DottedExample | main.py:120-126 | `"1.02.03"` parses to 3723 |
| Duration.MinuteOutOfRange | main.py:124-125 | `"65:00"` raises: the minute field is above 59 |
| Duration.TooManyFields | main.py:122-125 | `"1:2:3:4"` raises: three colons select `%M:%S`, which does not match |
| Download.DownloadVideo | main.py:128-142 | a path is returned iff the video resolves, its stream query does not raise, and the file either exists already or the download succeeds; a working audio stream always yields the path; a returned path is `datasets/songs/<cleaned video title>.mp3` and exists afterwards; the store only grows, and grows by exactly that path iff a download ran, which needs the path to be absent; an existing file is returned without downloading unless the stream query raises |
| Download.DownloadMonotone | main.py:133-137 | a call that returns a path against some store still returns one against any larger store: an extra file can only turn a failed download into a cache hit |
| Download.DownloadTwice | main.py:128-142 | after a successful call, calling again for the same URL returns the same path and downloads nothing |
| Download.SameIdentifierSharesFile | main.py:132-137 | two videos whose titles clean to one identifier share one file: the second is a cache hit |
| Acquisition.SearchYoutube | main.py:85-89 | at most five candidates, all the hits when there are fewer; each is the hit at that position with `https://www.youtube.com` prefixed to its URL suffix |
| Acquisition.AcquireOne | main.py:100-117 | one candidate: the downloader is called iff its duration parses and is below the limit; a row is produced iff the candidate passes that filter and the download returns a path, and the row carries that path; a row is that candidate's listing, below the limit, naming a stored file; a working download always gives the row, and so does any call that returns a path, a cache hit included |
| Acquisition.AcquireCandidates | main.py:100-117 | the inner loop: the downloader is called exactly for the filtered candidates, in order; the rows are a subsequence of them, each below the limit and naming a stored file; every filtered candidate for which the downloader returns a path against the starting store, a cache hit included, is among the rows, and so is every one whose video downloads; the store only grows |
| Acquisition.AcquireEntry | main.py:97-117 | one catalog row yields at most five rows, drawn in order from its filtered search results; every filtered result for which the downloader returns a path against the starting store, a cache hit included, is among them, and so is every one whose video downloads |
| Acquisition.DownloadSongs | main.py:95-118 | the downloaded rows are a subsequence of the filtered candidates in catalog-then-candidate order; each is below the limit with a stored path; filtered-out candidates are never downloaded; every filtered candidate for which the downloader returns a path against the starting store, a cache hit included, is among the rows, and so is every one whose video downloads; at most five times as many rows as catalog rows in total |
| Acquisition.AcquireCandidatesComplete | main.py:100-117 | when every download succeeds, one row's results are exactly its filtered candidates |
| Acquisition.DownloadSongsComplete | main.py:95-118 | when every download succeeds, the rows are exactly the filtered candidates, in order |
| Acquisition.ScenarioAttempts | main.py:95-118 | for hits of 2:10, 6:05 and 1:50 with a 300 s limit, whatever the downloads do, the downloader is called for the first and third hit only |
| Acquisition.ScenarioRows | main.py:95-118 | with working downloads, the same hits give two rows, of 130 and 110 s |
| Acquisition.AmparAmparPisangScenario | main.py:95-118 | hits of 2:10, 6:05 and 1:50 with a 300 s limit give two rows of 130 and 110 s; the 6:05 hit is never downloaded |
| Wav.ConvertToWav | main.py:144-154 | `None` iff the path is falsy; otherwise the replaced path is returned; the converter runs iff that file is absent; the store grows by at most that file, and not at all when nothing ran |
| Strings.ReplaceChar | main.py:92 | the one-character `str.replace` keeps the length and changes exactly the positions holding the old character, to the new one, so no old character is left when the two differ; used at main.py:92, 121 and 173 |
| Strings.NatToString | main.py:183 | the `{i + 1}` formatting gives decimal digits without a leading zero whose value is the number, so different numbers give different text |
| Strings.ReplaceAll | main.py:148 | `str.replace` turns an occurrence at the front into the replacement, keeps the length when the replacement is as long as the pattern, and is the identity when the two are equal |
| Strings.ReplaceAllAbsent | main.py:148 | `str.replace` leaves a string without the pattern unchanged |
| Wav.ConvertTwice | main.py:148-150 | once the wav file exists, converting again runs nothing and returns the same path |
| Wav.WavPathOfSongPath | main.py:148 | for an identifier without `songs` or `.`, `datasets/songs/<id>.mp3` maps to `datasets/wav_songs/<id>.wav`: the first replacement rewrites only the directory, the second only the extension |
| Wav.WavPathOfTitle | main.py:148 | for every title whose identifier has no `songs`, the wav file of its download is `datasets/wav_songs/<id>.wav` |
| Segments.PathJoin | main.py:174 | `os.path.join` returns an absolute second part unchanged; otherwise the result starts with the first part and ends with the second, with one `/` inserted between them exactly when the first part is non-empty and does not end in `/` |
| Segments.RegionDir | main.py:173 | the region directory has the region's length, no space and no ASCII capital; position by position, `_` stands exactly where the region had a space or `_`, and every other character is the region's up to case |
| Segments.RegionDirIdempotent | main.py:173 | normalising a region directory name again changes nothing |
| Segments.SplitTrack | main.py:176-183 | `floor(len / window)` windows: they fit in the track, and one more would not; window `i` is `[i*w, i*w + w)`, ends within the track, and is written to `<base>/<region>/<seg>/<seg>_segment<i+1>.wav`, `<seg>` being the cleaned title of the row |
| Segments.WindowsContiguous | main.py:179-182 | each window starts where the previous one ends |
| Segments.SegmentsPartitionTime | main.py:177-182 | every instant before the end of the last window lies in exactly one window, number `t / w` |
| Segments.SegmentFilesDistinct | main.py:183 | different windows of one track are written to different files |
| Segments.NinetyFiveSeconds | main.py:176-182 | a 95 s track with 30 s windows gives three windows, 0-30, 30-60 and 60-90 s |
| Segments.TrackRows | main.py:179-190 | one track contributes one row per whole window, carrying the track's title, region and keyword and the window's file |
| Segments.SegmentTableSize | main.py:165-192 | the segment table has as many rows as there are whole windows over all tracks |
| Segments.ExportTrack | main.py:179-190 | the inner loop appends exactly the track's rows, in window order |
| Segments.SplitSongsToSegments | main.py:165-192 | the outer loop returns each track's rows in table order, one row per whole window |

## Left out

- Scraping the catalog (`get_song_list`, `load_song_data`) and the CSV files: network and file I/O. The catalog is an input sequence.
- `setup_directories`, the Google Cloud Storage branch and the `TYPE`, `BUCKET_NAME` and `STORAGE_TYPE` globals: storage set-up with no logic to model. The globals are also undefined as written.
- `main`: the random `sample(n=5)` of the catalog, and the DataFrame plumbing between stages.
- `get_duration` and `extract_mfcc_features`: audio analysis in `librosa`. Floating point.
- The network behind `YoutubeSearch` and `pytubefix`. They become oracles. The model assumes `song.download(..., filename=title)` writes exactly `datasets/songs/<title>.mp3`.
- Partial files left by a download that fails midway. A failed download adds nothing to the store.
- `ffmpeg` itself. It is an oracle that says whether the wav file appears.
- The crash when `AudioSegment.from_wav` cannot read a file, for example one the converter never produced, or a `None` wav path. The model's decoder always returns a length. The audio slicing and `export` are not modelled beyond the file name each window gets.
- Search hits whose duration is not a string (for example, live streams). In the source these raise an uncaught `AttributeError`. The model takes every duration as text.
- TitleClean.Clean: `str.lower()` is modelled for ASCII letters only. Unicode case mapping is not modelled. Non-ASCII letters are deleted by the final substitution either way, except where lower-casing turns one into an ASCII letter (such as `K`, KELVIN SIGN).
- Duration.ParseDuration: `strptime`'s `\d` also matches non-ASCII decimal digits. The model accepts ASCII digits only.
- Segments.SplitTrack: the window count is computed in exact integers as `len / (1000 * window)`. The source divides floats, `len / 1000 // window`. The two agree for all track lengths of realistic size.
- Segments.RegionDir: `str.lower()` is modelled for ASCII letters only. Python also lower-cases non-ASCII capitals such as `Ö`, and nothing deletes them from the region directory afterwards, so for such regions the model's directory name keeps the capital where the source's has the small letter.
- Segments.SplitSongsToSegments: the set of exported files is not tracked. The row paths are those files.

=== FILE: acquisition.dfy ===
/** `search_youtube` and `download_songs`: for every catalog row, search the
    video index for "title region", keep the hits whose duration parses and is
    below the limit, try to download each one, and record a row per file
    obtained. A malformed duration (`ValueError`) or a failed download only
    skips that candidate. There is no per-row quota: every hit the search
    returns is considered.

    The search index is an oracle from query to hits; the video service is the
    oracle of `Download.DownloadVideo`. The file store is threaded through
    the whole loop, so a later candidate can hit a file an earlier one fetched. */
module Acquisition {
  import opened Options
  import opened Strings
  import opened Duration
  import opened Download

  /** `YoutubeSearch(query, max_results=5)`. */
  const MaxResults: nat := 5
  const UrlPrefix: string := "https://www.youtube.com"

  /** One catalog row: the `Nama Lagu` and `Asal Daerah` columns. */
  datatype CatalogEntry = CatalogEntry(title: string, region: string)

  /** One raw hit of the search index. */
  datatype SearchHit = SearchHit(title: string, duration: string, urlSuffix: string)

  /** A hit with its full URL, as `search_youtube` returns it. */
  datatype Candidate = Candidate(title: string, duration: string, url: string)

  /** One row of the acquisition table. */
  datatype Track = Track(title: string, region: string, keyword: string, duration: nat,
                         url: string, path: string)

  /** A row before its download: every column but `path`. */
  datatype Listing = Listing(title: string, region: string, keyword: string, duration: nat,
                             url: string)

  /** What the loop produced: the rows, the URLs it passed to the downloader
      (in call order), and the file store afterwards. */
  datatype Acquired = Acquired(rows: seq<Track>, attempts: seq<string>, store: Store)

  /** The search query `f"{title} {region}"`. */
  function Query(e: CatalogEntry): string {
    e.title + " " + e.region
  }

  /** The `keyword` column `f"{title},{region}"`. */
  function Keyword(e: CatalogEntry): string {
    e.title + "," + e.region
  }

  function ToCandidate(h: SearchHit): Candidate {
    Candidate(h.title, h.duration, UrlPrefix + h.urlSuffix)
  }

  /** `search_youtube(query)`: the first (at most five) hits, in the index's
      order, each with the site prefix put in front of its URL suffix. */
  function SearchYoutube(search: string -> seq<SearchHit>, query: string): (cs: seq<Candidate>)
    ensures |cs| <= MaxResults && |cs| <= |search(query)|
    ensures |cs| == |search(query)| || |cs| == MaxResults
    ensures forall i :: 0 <= i < |cs| ==> cs[i] == ToCandidate(search(query)[i])
  {
    var hits := search(query);
    var n := if |hits| < MaxResults then |hits| else MaxResults;
    seq(n, i requires 0 <= i < n => ToCandidate(hits[i]))
  }

  function ListingOf(t: Track): Listing {
    Listing(t.title, t.region, t.keyword, t.duration, t.url)
  }

  function Listings(rows: seq<Track>): seq<Listing> {
    seq(|rows|, i requires 0 <= i < |rows| => ListingOf(rows[i]))
  }

  function Urls(ls: seq<Listing>): seq<string> {
    seq(|ls|, i requires 0 <= i < |ls| => ls[i].url)
  }

  /** The listing a candidate becomes when its duration parses and is below
      the limit; none otherwise. Downloads play no part here. */
  function EligibleOne(e: CatalogEntry, c: Candidate, maxDuration: nat): seq<Listing> {
    match ParseDuration(c.duration)
    case Some(d) => if d < maxDuration then [Listing(c.title, e.region, Keyword(e), d, c.url)] else []
    case None => []
  }

  /** The reference sequence for one catalog row: every candidate that passes
      the duration filter, in candidate order. */
  function Eligible(e: CatalogEntry, cs: seq<Candidate>, maxDuration: nat): seq<Listing> {
    if |cs| == 0 then [] else EligibleOne(e, cs[0], maxDuration) + Eligible(e, cs[1..], maxDuration)
  }

  /** The reference sequence for the whole catalog, in catalog order. */
  function EligibleAll(entries: seq<CatalogEntry>, search: string -> seq<SearchHit>,
                       maxDuration: nat): seq<Listing>
  {
    if |entries| == 0 then []
    else
      Eligible(entries[0], SearchYoutube(search, Query(entries[0])), maxDuration)
      + EligibleAll(entries[1..], search, maxDuration)
  }

  /** A row's file is the cleaned title of the video its URL names, and is in the store. */
  predicate StoredDownload(t: Track, video: string -> Option<VideoInfo>, store: Store) {
    && video(t.url).Some?
    && t.path == SongPath(TitleClean.Clean(video(t.url).value.title))
    && t.path in store
  }

  /** Every row is below the duration limit and names a stored download. */
  predicate GoodRows(rows: seq<Track>, maxDuration: nat, video: string -> Option<VideoInfo>,
                     store: Store)
  {
    forall i :: 0 <= i < |rows| ==> rows[i].duration < maxDuration && StoredDownload(rows[i], video, store)
  }

  lemma ListingsConcat(a: seq<Track>, b: seq<Track>)
    ensures Listings(a + b) == Listings(a) + Listings(b)
  {
  }

  lemma UrlsConcat(a: seq<Listing>, b: seq<Listing>)
    ensures Urls(a + b) == Urls(a) + Urls(b)
  {
  }

  lemma GoodRowsConcat(a: seq<Track>, b: seq<Track>, maxDuration: nat,
                       video: string -> Option<VideoInfo>, mid: Store, store: Store)
    requires mid <= store
    requires GoodRows(a, maxDuration, video, mid) && GoodRows(b, maxDuration, video, store)
    ensures GoodRows(a + b, maxDuration, video, store)
  {
    forall i | 0 <= i < |a + b|
      ensures (a + b)[i].duration < maxDuration && StoredDownload((a + b)[i], video, store)
    {
      if i < |a| {
        assert (a + b)[i] == a[i];
      } else {
        assert (a + b)[i] == b[i - |a|];
      }
    }
  }

  /** The loop body for one candidate. */
  function AcquireOne(e: CatalogEntry, c: Candidate, maxDuration: nat,
                      video: string -> Option<VideoInfo>, store: Store): (a: Acquired)
    ensures a.attempts == Urls(EligibleOne(e, c, maxDuration))
    ensures Subseq(Listings(a.rows), EligibleOne(e, c, maxDuration))
    ensures GoodRows(a.rows, maxDuration, video, a.store)
    ensures store <= a.store
    ensures |a.rows| <= 1
    ensures |a.rows| == 1 <==> EligibleOne(e, c, maxDuration) != [] && DownloadVideo(store, c.url, video).path.Some?
    ensures |a.rows| == 1 ==> a.rows[0].path == DownloadVideo(store, c.url, video).path.value
    ensures Works(video, c.url) ==> Listings(a.rows) == EligibleOne(e, c, maxDuration)
    ensures DownloadVideo(store, c.url, video).path.Some? ==> Listings(a.rows) == EligibleOne(e, c, maxDuration)
  {
    match ParseDuration(c.duration)
    case None => Acquired([], [], store)
    case Some(d) =>
      if d < maxDuration then
        var l := Listing(c.title, e.region, Keyword(e), d, c.url);
        var f := DownloadVideo(store, c.url, video);
        assert EligibleOne(e, c, maxDuration) == [l];
        assert Urls([l]) == [c.url];
        if f.path.Some? then
          var t := Track(c.title, e.region, Keyword(e), d, c.url, f.path.value);
          assert Listings([t]) == [l];
          SubseqRefl([l]);
          Acquired([t], [c.url], f.store)
        else
          Acquired([], [c.url], f.store)
      else Acquired([], [], store)
  }

  /** The inner loop of `download_songs` over one row's candidates. */
  function AcquireCandidates(e: CatalogEntry, cs: seq<Candidate>, maxDuration: nat,
                             video: string -> Option<VideoInfo>, store: Store): (a: Acquired)
    ensures |a.rows| <= |a.attempts| <= |cs|
    ensures a.attempts == Urls(Eligible(e, cs, maxDuration))
    ensures Subseq(Listings(a.rows), Eligible(e, cs, maxDuration))
    ensures GoodRows(a.rows, maxDuration, video, a.store)
    ensures store <= a.store
    ensures forall l :: l in Eligible(e, cs, maxDuration) && Works(video, l.url) ==> l in Listings(a.rows)
    ensures forall l :: l in Eligible(e, cs, maxDuration) && DownloadVideo(store, l.url, video).path.Some?
                        ==> l in Listings(a.rows)
    decreases |cs|
  {
    if |cs| == 0 then Acquired([], [], store)
    else
      var step := AcquireOne(e, cs[0], maxDuration, video, store);
      var rest := AcquireCandidates(e, cs[1..], maxDuration, video, step.store);
      var a := Acquired(step.rows + rest.rows, step.attempts + rest.attempts, rest.store);
      ListingsConcat(step.rows, rest.rows);
      UrlsConcat(EligibleOne(e, cs[0], maxDuration), Eligible(e, cs[1..], maxDuration));
      SubseqConcat(Listings(step.rows), EligibleOne(e, cs[0], maxDuration),
                   Listings(rest.rows), Eligible(e, cs[1..], maxDuration));
      GoodRowsConcat(step.rows, rest.rows, maxDuration, video, step.store, rest.store);
      assert |step.rows| <= |step.attempts| <= 1;
      FetchedConcat(e, cs[0], cs[1..], maxDuration, video, store, step.store,
                    Listings(step.rows), Listings(rest.rows));
      WorksFetches(Eligible(e, cs, maxDuration), video, store, Listings(a.rows));
      a
  }

  /** The rows of the first candidate and of the rest together hold every
      filtered candidate for which the download returns a path, if each part
      does; the rest runs against the store the first candidate left, which
      can only have grown. */
  lemma FetchedConcat(e: CatalogEntry, c: Candidate, cs: seq<Candidate>, maxDuration: nat,
                      video: string -> Option<VideoInfo>, store: Store, mid: Store,
                      first: seq<Listing>, rest: seq<Listing>)
    requires store <= mid
    requires DownloadVideo(store, c.url, video).path.Some? ==> first == EligibleOne(e, c, maxDuration)
    requires forall l :: l in Eligible(e, cs, maxDuration) && DownloadVideo(mid, l.url, video).path.Some? ==> l in rest
    ensures forall l :: l in EligibleOne(e, c, maxDuration) + Eligible(e, cs, maxDuration)
                        && DownloadVideo(store, l.url, video).path.Some?
                        ==> l in first + rest
  {
    forall l | l in EligibleOne(e, c, maxDuration) + Eligible(e, cs, maxDuration)
               && DownloadVideo(store, l.url, video).path.Some?
      ensures l in first + rest
    {
      if l in EligibleOne(e, c, maxDuration) {
        assert l.url == c.url;
        assert l in first;
      } else {
        DownloadMonotone(store, mid, l.url, video);
        assert l in rest;
      }
    }
  }

  /** A candidate whose video downloads gets a path from the downloader, so a
      row set holding every candidate with a path holds every one that works. */
  lemma WorksFetches(ls: seq<Listing>, video: string -> Option<VideoInfo>, store: Store, rows: seq<Listing>)
    requires forall l :: l in ls && DownloadVideo(store, l.url, video).path.Some? ==> l in rows
    ensures forall l :: l in ls && Works(video, l.url) ==> l in rows
  {
    forall l | l in ls && Works(video, l.url)
      ensures l in rows
    {
      assert DownloadVideo(store, l.url, video).path.Some?;
    }
  }

  /** One row of the catalog: search, then the inner loop. At most five rows
      come out, because the search returns at most five hits. */
  function AcquireEntry(e: CatalogEntry, search: string -> seq<SearchHit>,
                        video: string -> Option<VideoInfo>, maxDuration: nat, store: Store): (a: Acquired)
    ensures |a.rows| <= MaxResults
    ensures a.attempts == Urls(Eligible(e, SearchYoutube(search, Query(e)), maxDuration))
    ensures Subseq(Listings(a.rows), Eligible(e, SearchYoutube(search, Query(e)), maxDuration))
    ensures GoodRows(a.rows, maxDuration, video, a.store)
    ensures store <= a.store
    ensures forall l :: l in Eligible(e, SearchYoutube(search, Query(e)), maxDuration) && Works(video, l.url)
                        ==> l in Listings(a.rows)
    ensures forall l :: l in Eligible(e, SearchYoutube(search, Query(e)), maxDuration)
                        && DownloadVideo(store, l.url, video).path.Some?
                        ==> l in Listings(a.rows)
  {
    AcquireCandidates(e, SearchYoutube(search, Query(e)), maxDuration, video, store)
  }

  /** `download_songs(data)`, with `MAX_VIDEO_DURATION` as `maxDuration`.
      Every row is below the limit and names a stored file; the rows follow
      catalog order and then candidate order; the downloader is called for
      exactly the candidates that pass the duration filter. */
  function DownloadSongs(entries: seq<CatalogEntry>, search: string -> seq<SearchHit>,
                         video: string -> Option<VideoInfo>, maxDuration: nat, store: Store): (a: Acquired)
    ensures |a.rows| <= MaxResults * |entries|
    ensures a.attempts == Urls(EligibleAll(entries, search, maxDuration))
    ensures Subseq(Listings(a.rows), EligibleAll(entries, search, maxDuration))
    ensures GoodRows(a.rows, maxDuration, video, a.store)
    ensures store <= a.store
    ensures forall l :: l in EligibleAll(entries, search, maxDuration) && Works(video, l.url) ==> l in Listings(a.rows)
    ensures forall l :: l in EligibleAll(entries, search, maxDuration) && DownloadVideo(store, l.url, video).path.Some?
                        ==> l in Listings(a.rows)
    decreases |entries|
  {
    if |entries| == 0 then Acquired([], [], store)
    else
      var first := AcquireEntry(entries[0], search, video, maxDuration, store);
      var rest := DownloadSongs(entries[1..], search, video, maxDuration, first.store);
      ListingsConcat(first.rows, rest.rows);
      UrlsConcat(Eligible(entries[0], SearchYoutube(search, Query(entries[0])), maxDuration),
                 EligibleAll(entries[1..], search, maxDuration));
      SubseqConcat(Listings(first.rows), Eligible(entries[0], SearchYoutube(search, Query(entries[0])), maxDuration),
                   Listings(rest.rows), EligibleAll(entries[1..], search, maxDuration));
      GoodRowsConcat(first.rows, rest.rows, maxDuration, video, first.store, rest.store);
      var a := Acquired(first.rows + rest.rows, first.attempts + rest.attempts, rest.store);
      forall l | l in EligibleAll(entries, search, maxDuration) && DownloadVideo(store, l.url, video).path.Some?
        ensures l in Listings(a.rows)
      {
        if l in Eligible(entries[0], SearchYoutube(search, Query(entries[0])), maxDuration) {
          assert l in Listings(first.rows);
        } else {
          DownloadMonotone(store, first.store, l.url, video);
          assert l in Listings(rest.rows);
        }
      }
      WorksFetches(EligibleAll(entries, search, maxDuration), video, store, Listings(a.rows));
      a
  }

  /** Every video resolves and every download succeeds. */
  ghost predicate AlwaysDownloads(video: string -> Option<VideoInfo>) {
    forall u :: Works(video, u)
  }

  lemma {:induction false} AcquireCandidatesComplete(e: CatalogEntry, cs: seq<Candidate>, maxDuration: nat,
                                                     video: string -> Option<VideoInfo>, store: Store)
    requires AlwaysDownloads(video)
    ensures Listings(AcquireCandidates(e, cs, maxDuration, video, store).rows) == Eligible(e, cs, maxDuration)
    decreases |cs|
  {
    if |cs| > 0 {
      var step := AcquireOne(e, cs[0], maxDuration, video, store);
      assert Works(video, cs[0].url);
      assert Listings(step.rows) == EligibleOne(e, cs[0], maxDuration);
      AcquireCandidatesComplete(e, cs[1..], maxDuration, video, step.store);
      var rest := AcquireCandidates(e, cs[1..], maxDuration, video, step.store);
      ListingsConcat(step.rows, rest.rows);
    }
  }

  /** When every download succeeds, the rows are exactly the candidates that
      pass the duration filter, in order: nothing else is dropped. */
  lemma {:induction false} DownloadSongsComplete(entries: seq<CatalogEntry>, search: string -> seq<SearchHit>,
                                                 video: string -> Option<VideoInfo>, maxDuration: nat, store: Store)
    requires AlwaysDownloads(video)
    ensures Listings(DownloadSongs(entries, search, video, maxDuration, store).rows)
            == EligibleAll(entries, search, maxDuration)
    decreases |entries|
  {
    if |entries| > 0 {
      var e := entries[0];
      var first := AcquireEntry(e, search, video, maxDuration, store);
      AcquireCandidatesComplete(e, SearchYoutube(search, Query(e)), maxDuration, video, store);
      DownloadSongsComplete(entries[1..], search, video, maxDuration, first.store);
      var rest := DownloadSongs(entries[1..], search, video, maxDuration, first.store);
      ListingsConcat(first.rows, rest.rows);
    }
  }

  /** The search oracle of the scenario below: three hits lasting 2:10, 6:05
      and 1:50, whatever the query. */
  function ScenarioSearch(query: string): seq<SearchHit> {
    [ SearchHit("Ampar Ampar Pisang", "2:10", "/watch?v=a"),
      SearchHit("Ampar Ampar Pisang (full)", "6:05", "/watch?v=b"),
      SearchHit("Ampar Ampar Pisang cover", "1:50", "/watch?v=c") ]
  }

  function ScenarioEntry(): CatalogEntry {
    CatalogEntry("Ampar Ampar Pisang", "Kalimantan Selatan")
  }

  /** The duration filter on each hit: 130 and 110 seconds pass, 365 does not. */
  lemma ScenarioEligibleEach()
    ensures var e := ScenarioEntry();
            var cs := SearchYoutube(ScenarioSearch, Query(e));
            && |cs| == 3
            && EligibleOne(e, cs[0], 300) == [Listing(cs[0].title, e.region, Keyword(e), 130, cs[0].url)]
            && EligibleOne(e, cs[1], 300) == []
            && EligibleOne(e, cs[2], 300) == [Listing(cs[2].title, e.region, Keyword(e), 110, cs[2].url)]
  {
    var e := ScenarioEntry();
    var hits := ScenarioSearch(Query(e));
    var cs := SearchYoutube(ScenarioSearch, Query(e));
    assert |cs| == 3;
    assert cs[0].duration == "2:10" && cs[1].duration == "6:05" && cs[2].duration == "1:50";
    ScenarioDurations();
  }

  /** The reference sequence of the scenario: the first and third hit. */
  lemma ScenarioEligible()
    ensures var e := ScenarioEntry();
            var cs := SearchYoutube(ScenarioSearch, Query(e));
            var eligible := EligibleAll([e], ScenarioSearch, 300);
            && |eligible| == 2
            && eligible[0].duration == 130 && eligible[1].duration == 110
            && eligible[0].url == cs[0].url && eligible[1].url == cs[2].url
  {
    var e := ScenarioEntry();
    var cs := SearchYoutube(ScenarioSearch, Query(e));
    ScenarioEligibleEach();
    EligibleThree(e, cs, 300);
    EligibleAllOne(e, ScenarioSearch, 300);
  }

  /** Three candidates are filtered one by one, in order. */
  lemma EligibleThree(e: CatalogEntry, cs: seq<Candidate>, maxDuration: nat)
    requires |cs| == 3
    ensures Eligible(e, cs, maxDuration)
            == EligibleOne(e, cs[0], maxDuration) + EligibleOne(e, cs[1], maxDuration)
               + EligibleOne(e, cs[2], maxDuration)
  {
    var one, two, three := EligibleOne(e, cs[0], maxDuration), EligibleOne(e, cs[1], maxDuration),
                           EligibleOne(e, cs[2], maxDuration);
    var t1 := cs[1..];
    var t2 := t1[1..];
    assert t2[0] == cs[2] && t2[1..] == [];
    assert Eligible(e, t2, maxDuration) == three + [];
    assert Eligible(e, t1, maxDuration) == two + three;
    assert Eligible(e, cs, maxDuration) == one + (two + three);
  }

  /** A one-row catalog is filtered as that row's search results. */
  lemma EligibleAllOne(e: CatalogEntry, search: string -> seq<SearchHit>, maxDuration: nat)
    ensures EligibleAll([e], search, maxDuration) == Eligible(e, SearchYoutube(search, Query(e)), maxDuration)
  {
    assert [e][1..] == [];
  }

  /** With a 300-second limit, whatever the video service answers, the
      downloader is called for the 2:10 and the 1:50 hit only, in that order;
      the 6:05 hit never reaches it. */
  lemma ScenarioAttempts(video: string -> Option<VideoInfo>, store: Store)
    ensures DownloadSongs([ScenarioEntry()], ScenarioSearch, video, 300, store).attempts
            == [UrlPrefix + "/watch?v=a", UrlPrefix + "/watch?v=c"]
  {
    var e := ScenarioEntry();
    var cs := SearchYoutube(ScenarioSearch, Query(e));
    var eligible := EligibleAll([e], ScenarioSearch, 300);
    ScenarioEligible();
    assert cs[0].url == UrlPrefix + "/watch?v=a" && cs[2].url == UrlPrefix + "/watch?v=c";
    assert Urls(eligible) == [eligible[0].url, eligible[1].url];
  }

  /** With a 300-second limit and working downloads, the scenario gives two
      rows, of 130 and 110 seconds, in search order. */
  lemma ScenarioRows(video: string -> Option<VideoInfo>, store: Store)
    requires AlwaysDownloads(video)
    ensures var a := DownloadSongs([ScenarioEntry()], ScenarioSearch, video, 300, store);
            |a.rows| == 2 && a.rows[0].duration == 130 && a.rows[1].duration == 110
  {
    var e := ScenarioEntry();
    var eligible := EligibleAll([e], ScenarioSearch, 300);
    ScenarioEligible();
    DownloadSongsComplete([e], ScenarioSearch, video, 300, store);
    var a := DownloadSongs([e], ScenarioSearch, video, 300, store);
    assert Listings(a.rows) == eligible;
    assert ListingOf(a.rows[0]) == eligible[0];
    assert ListingOf(a.rows[1]) == eligible[1];
  }

  /** With a 300-second limit and working downloads, the catalog row
      "Ampar Ampar Pisang" of "Kalimantan Selatan" yields exactly two rows, of
      130 and 110 seconds; the 365-second hit is never downloaded. */
  lemma AmparAmparPisangScenario(video: string -> Option<VideoInfo>, store: Store)
    requires AlwaysDownloads(video)
    ensures var a := DownloadSongs([ScenarioEntry()], ScenarioSearch, video, 300, store);
            && |a.rows| == 2
            && a.rows[0].duration == 130 && a.rows[1].duration == 110
            && a.attempts == [UrlPrefix + "/watch?v=a", UrlPrefix + "/watch?v=c"]
  {
    ScenarioRows(video, store);
    ScenarioAttempts(video, store);
  }
}

=== FILE: download.dfy ===
/** `download_video`: fetches the audio of one video into `datasets/songs`,
    named after the cleaned video title, unless that file is already there.

    The video service is an oracle `video` from URL to what the service
    reports: `None` when constructing the `YouTube` object or reading its
    title raises, otherwise the title and the outcome of asking for an
    audio-only stream. The file store is the set of paths that exist. */
module Download {
  import opened Options
  import TitleClean

  /** What `yt.streams.get_audio_only()` does, and whether the download that
      may follow it succeeds. */
  datatype StreamLookup =
    | LookupRaises                           // the stream query raises
    | NoAudioStream                          // it returns `None`
    | AudioStream(downloadSucceeds: bool)    // it returns a stream

  datatype VideoInfo = VideoInfo(title: string, stream: StreamLookup)

  type Store = set<string>

  /** The returned path (`None` for Python's `None`), the file store
      afterwards, and whether a download actually ran. */
  datatype Fetch = Fetch(path: Option<string>, store: Store, downloaded: bool)

  const SongsPrefix: string := "datasets/songs/"

  /** `f'datasets/songs/{title}.mp3'`. */
  function SongPath(id: string): string {
    SongsPrefix + id + ".mp3"
  }

  /** The video resolves and its audio stream downloads. */
  predicate Works(video: string -> Option<VideoInfo>, url: string) {
    video(url).Some? && video(url).value.stream == AudioStream(true)
  }

  /** `download_video(url)`. The stream is queried before the cache check, so
      a failing query loses even a cached file; a missing stream is only
      noticed (as an `AttributeError`) when the file has to be downloaded. */
  function DownloadVideo(store: Store, url: string, video: string -> Option<VideoInfo>): (f: Fetch)
    ensures f.path.Some? ==>
              && video(url).Some?
              && f.path.value == SongPath(TitleClean.Clean(video(url).value.title))
              && f.path.value in f.store
    ensures store <= f.store
    ensures f.store != store <==> f.downloaded
    ensures f.downloaded ==> f.path.Some? && f.store == store + {f.path.value} && f.path.value !in store
    ensures video(url).Some? && video(url).value.stream != LookupRaises
            && SongPath(TitleClean.Clean(video(url).value.title)) in store
            ==> f == Fetch(Some(SongPath(TitleClean.Clean(video(url).value.title))), store, false)
    ensures f.path.Some? <==>
              && video(url).Some?
              && video(url).value.stream != LookupRaises
              && (SongPath(TitleClean.Clean(video(url).value.title)) in store
                  || video(url).value.stream == AudioStream(true))
    ensures Works(video, url) ==> f.path == Some(SongPath(TitleClean.Clean(video(url).value.title)))
  {
    match video(url)
    case None => Fetch(None, store, false)
    case Some(info) =>
      var path := SongPath(TitleClean.Clean(info.title));
      if info.stream == LookupRaises then Fetch(None, store, false)
      else if path in store then Fetch(Some(path), store, false)
      else
        match info.stream
        case AudioStream(true) => Fetch(Some(path), store + {path}, true)
        case _ => Fetch(None, store, false)
  }

  /** A call that returns a path still returns one against a larger store:
      more files on disk can only turn a failed download into a cache hit. */
  lemma DownloadMonotone(store: Store, larger: Store, url: string, video: string -> Option<VideoInfo>)
    requires store <= larger
    requires DownloadVideo(store, url, video).path.Some?
    ensures DownloadVideo(larger, url, video).path.Some?
  {
  }

  /** A second call for the same URL after a successful one downloads
      nothing, returns the same path and leaves the store as it was. */
  lemma DownloadTwice(store: Store, url: string, video: string -> Option<VideoInfo>)
    ensures var first := DownloadVideo(store, url, video);
            first.path.Some? ==>
              DownloadVideo(first.store, url, video) == Fetch(first.path, first.store, false)
  {
  }

  /** Two videos whose titles clean to the same identifier share one file:
      once the first is stored, the second is a cache hit. */
  lemma SameIdentifierSharesFile(store: Store, url1: string, url2: string,
                                 video: string -> Option<VideoInfo>)
    requires video(url1).Some? && video(url2).Some?
    requires video(url2).value.stream != LookupRaises
    requires TitleClean.Clean(video(url1).value.title) == TitleClean.Clean(video(url2).value.title)
    ensures var first := DownloadVideo(store, url1, video);
            first.path.Some? ==>
              DownloadVideo(first.store, url2, video) == Fetch(first.path, first.store, false)
  {
  }
}

=== FILE: duration.dfy ===
/** `parse_duration`: turns a search result's duration text into seconds.

    Every `.` is first read as `:`. Text with exactly two colons is parsed with
    `strptime` as `%H:%M:%S`, any other text as `%M:%S`. Each `strptime` field
    is one or two digits; `%H` lies in 0..23 and `%M`, `%S` in 0..59 (the
    `%S` pattern also admits 60 and 61, which the `datetime` constructor then
    rejects). Every other layout raises `ValueError`, modelled as `None`. */
module Duration {
  import opened Options
  import opened Strings

  const MaxHour: nat := 23
  const MaxMinute: nat := 59
  const MaxSecond: nat := 59

  /** One `strptime` numeric field: one or two digits, value at most `max`. */
  predicate ValidField(f: string, max: nat) {
    1 <= |f| <= 2 && AllDigits(f) && DecimalValue(f) <= max
  }

  /** `duration_str.replace('.', ':')`. */
  function DotsToColons(s: string): string {
    ReplaceChar(s, '.', ':')
  }

  /** `hour * 3600 + minute * 60 + second`. */
  function Seconds(h: nat, m: nat, sec: nat): nat {
    h * 3600 + m * 60 + sec
  }

  /** `strptime(t, '%H:%M:%S')`, as seconds since midnight. */
  function ParseHourMinSec(t: string): Option<nat> {
    var fs := Split(t, ':');
    if |fs| == 3 && ValidField(fs[0], MaxHour) && ValidField(fs[1], MaxMinute)
       && ValidField(fs[2], MaxSecond)
    then Some(Seconds(DecimalValue(fs[0]), DecimalValue(fs[1]), DecimalValue(fs[2])))
    else None
  }

  /** `strptime(t, '%M:%S')`, as seconds. */
  function ParseMinSec(t: string): Option<nat> {
    var fs := Split(t, ':');
    if |fs| == 2 && ValidField(fs[0], MaxMinute) && ValidField(fs[1], MaxSecond)
    then Some(Seconds(0, DecimalValue(fs[0]), DecimalValue(fs[1])))
    else None
  }

  /** `parse_duration(s)`; `None` stands for the `ValueError` it raises. A
      parsed duration is below one day, and below one hour unless the text
      has the hour layout; text without one or two separators is refused. */
  function ParseDuration(s: string): (r: Option<nat>)
    ensures r.Some? ==> r.value <= 86399
    ensures r.Some? && CountChar(DotsToColons(s), ':') != 2 ==> r.value <= 3599
    ensures CountChar(DotsToColons(s), ':') != 1 && CountChar(DotsToColons(s), ':') != 2 ==> r.None?
  {
    var t := DotsToColons(s);
    if CountChar(t, ':') == 2 then ParseHourMinSec(t) else ParseMinSec(t)
  }

  /** `t` reads `MM:SS` with fields `m` and `sec`. */
  predicate MinSecLayout(t: string, m: string, sec: string) {
    t == m + ":" + sec && ValidField(m, MaxMinute) && ValidField(sec, MaxSecond)
  }

  /** `t` reads `HH:MM:SS` with fields `h`, `m` and `sec`. */
  predicate HourMinSecLayout(t: string, h: string, m: string, sec: string) {
    t == h + ":" + m + ":" + sec
    && ValidField(h, MaxHour) && ValidField(m, MaxMinute) && ValidField(sec, MaxSecond)
  }

  predicate IsSeparator(c: char) {
    c == ':' || c == '.'
  }

  lemma DigitsHaveNoSeparator(f: string)
    requires AllDigits(f)
    ensures ':' !in f && '.' !in f
  {
    assert forall i :: 0 <= i < |f| ==> f[i] != ':' && f[i] != '.';
  }

  /** Reading dots as colons leaves a dot-free field alone and turns the
      separator after it into a colon. */
  lemma DotsToColonsHead(a: string, sep: char, b: string)
    requires IsSeparator(sep) && '.' !in a
    ensures DotsToColons(a + [sep] + b) == a + [':'] + DotsToColons(b)
  {
    var s := a + [sep] + b;
    var t := DotsToColons(s);
    var u := a + [':'] + DotsToColons(b);
    forall i | 0 <= i < |s|
      ensures t[i] == u[i]
    {
      if i < |a| {
        assert s[i] == a[i];
      } else if i > |a| {
        assert s[i] == b[i - |a| - 1];
      }
    }
  }

  lemma DotsToColonsFields(a: string, sep: char, b: string)
    requires IsSeparator(sep) && AllDigits(a) && AllDigits(b)
    ensures DotsToColons(a + [sep] + b) == a + [':'] + b
  {
    DigitsHaveNoSeparator(a);
    DigitsHaveNoSeparator(b);
    DotsToColonsHead(a, sep, b);
    ReplaceCharAbsent(b, '.', ':');
  }

  lemma JoinTwo(a: string, b: string)
    ensures Join([a, b], ':') == a + [':'] + b
  {
    assert [a, b][1..] == [b];
  }

  lemma JoinThree(a: string, b: string, c: string)
    ensures Join([a, b, c], ':') == a + [':'] + (b + [':'] + c)
  {
    assert [a, b, c][1..] == [b, c];
    JoinTwo(b, c);
  }

  lemma SplitTwo(m: string, sec: string)
    requires AllDigits(m) && AllDigits(sec)
    ensures Split(m + [':'] + sec, ':') == [m, sec]
  {
    DigitsHaveNoSeparator(m);
    DigitsHaveNoSeparator(sec);
    JoinTwo(m, sec);
    SplitJoin([m, sec], ':');
  }

  lemma SplitThree(h: string, m: string, sec: string)
    requires AllDigits(h) && AllDigits(m) && AllDigits(sec)
    ensures Split(h + [':'] + (m + [':'] + sec), ':') == [h, m, sec]
  {
    DigitsHaveNoSeparator(h);
    DigitsHaveNoSeparator(m);
    DigitsHaveNoSeparator(sec);
    JoinThree(h, m, sec);
    SplitJoin([h, m, sec], ':');
  }

  /** Once dots are colons, the parse depends only on the split fields. */
  lemma ParseByFields(s: string, fs: seq<string>)
    requires DotsToColons(s) == s && Split(s, ':') == fs
    ensures |fs| == 2 ==> ParseDuration(s) == ParseMinSec(s)
    ensures |fs| == 3 ==> ParseDuration(s) == ParseHourMinSec(s)
  {
  }

  lemma ParseMinSecFields(t: string, m: string, sec: string)
    requires ValidField(m, MaxMinute) && ValidField(sec, MaxSecond)
    requires Split(t, ':') == [m, sec]
    ensures ParseMinSec(t) == Some(Seconds(0, DecimalValue(m), DecimalValue(sec)))
  {
    var fs := Split(t, ':');
    assert |fs| == 2 && fs[0] == m && fs[1] == sec;
  }

  lemma ParseHourMinSecFields(t: string, h: string, m: string, sec: string)
    requires ValidField(h, MaxHour) && ValidField(m, MaxMinute) && ValidField(sec, MaxSecond)
    requires Split(t, ':') == [h, m, sec]
    ensures ParseHourMinSec(t) == Some(Seconds(DecimalValue(h), DecimalValue(m), DecimalValue(sec)))
  {
    var fs := Split(t, ':');
    assert |fs| == 3 && fs[0] == h && fs[1] == m && fs[2] == sec;
  }

  lemma ParseMinSecColon(m: string, sec: string)
    requires ValidField(m, MaxMinute) && ValidField(sec, MaxSecond)
    ensures ParseDuration(m + [':'] + sec) == Some(Seconds(0, DecimalValue(m), DecimalValue(sec)))
  {
    var t := m + [':'] + sec;
    DotsToColonsFields(m, ':', sec);
    SplitTwo(m, sec);
    ParseByFields(t, [m, sec]);
    ParseMinSecFields(t, m, sec);
  }

  /** `.` is a synonym for `:`: text parses exactly as its dots-to-colons form. */
  lemma ParseDurationReadsDotsAsColons(s: string)
    ensures ParseDuration(s) == ParseDuration(DotsToColons(s))
  {
    var t := DotsToColons(s);
    assert '.' !in t by {
      assert forall i :: 0 <= i < |t| ==> t[i] != '.';
    }
    ReplaceCharAbsent(t, '.', ':');
  }

  /** Any `M:S` or `M.S` text with valid fields parses to `Seconds(0, M, S)`. */
  lemma ParseMinSecText(m: string, sec: string, sep: char)
    requires IsSeparator(sep)
    requires ValidField(m, MaxMinute) && ValidField(sec, MaxSecond)
    ensures ParseDuration(m + [sep] + sec) == Some(Seconds(0, DecimalValue(m), DecimalValue(sec)))
  {
    DotsToColonsFields(m, sep, sec);
    ParseMinSecColon(m, sec);
    ParseDurationReadsDotsAsColons(m + [sep] + sec);
  }

  lemma ParseHourMinSecColon(h: string, m: string, sec: string)
    requires ValidField(h, MaxHour) && ValidField(m, MaxMinute) && ValidField(sec, MaxSecond)
    ensures ParseDuration(h + [':'] + (m + [':'] + sec))
            == Some(Seconds(DecimalValue(h), DecimalValue(m), DecimalValue(sec)))
  {
    var t := h + [':'] + (m + [':'] + sec);
    DigitsHaveNoSeparator(h);
    DigitsHaveNoSeparator(m);
    DigitsHaveNoSeparator(sec);
    assert DotsToColons(t) == t by {
      assert '.' !in t;
      ReplaceCharAbsent(t, '.', ':');
    }
    SplitThree(h, m, sec);
    ParseByFields(t, [h, m, sec]);
    ParseHourMinSecFields(t, h, m, sec);
  }

  /** Any `H:M:S` text, with `:` or `.` separators and valid fields, parses to
      `Seconds(H, M, S)`. */
  lemma ParseHourMinSecText(h: string, m: string, sec: string, sep1: char, sep2: char)
    requires IsSeparator(sep1) && IsSeparator(sep2)
    requires ValidField(h, MaxHour) && ValidField(m, MaxMinute) && ValidField(sec, MaxSecond)
    ensures ParseDuration(h + [sep1] + m + [sep2] + sec)
            == Some(Seconds(DecimalValue(h), DecimalValue(m), DecimalValue(sec)))
  {
    var tail := m + [sep2] + sec;
    var s := h + [sep1] + tail;
    var colons := h + [':'] + (m + [':'] + sec);
    assert h + [sep1] + m + [sep2] + sec == s;
    DigitsHaveNoSeparator(h);
    DotsToColonsHead(h, sep1, tail);
    DotsToColonsFields(m, sep2, sec);
    assert DotsToColons(s) == colons;
    ParseDurationReadsDotsAsColons(s);
    ParseHourMinSecColon(h, m, sec);
  }

  /** Accepted text with two separators has the hour layout, split at its colons. */
  lemma SoundHourMinSec(s: string, v: nat)
    requires ParseDuration(s) == Some(v) && CountChar(DotsToColons(s), ':') == 2
    ensures var t := DotsToColons(s);
            var fs := Split(t, ':');
            && |fs| == 3
            && HourMinSecLayout(t, fs[0], fs[1], fs[2])
            && v == Seconds(DecimalValue(fs[0]), DecimalValue(fs[1]), DecimalValue(fs[2]))
  {
    var t := DotsToColons(s);
    var fs := Split(t, ':');
    JoinSplit(t, ':');
    assert fs == [fs[0], fs[1], fs[2]];
    JoinThree(fs[0], fs[1], fs[2]);
    assert t == fs[0] + [':'] + (fs[1] + [':'] + fs[2]);
  }

  /** Accepted text with one separator has the minute layout, split at its colon. */
  lemma SoundMinSec(s: string, v: nat)
    requires ParseDuration(s) == Some(v) && CountChar(DotsToColons(s), ':') != 2
    ensures var t := DotsToColons(s);
            var fs := Split(t, ':');
            && |fs| == 2
            && MinSecLayout(t, fs[0], fs[1])
            && v == Seconds(0, DecimalValue(fs[0]), DecimalValue(fs[1]))
  {
    var t := DotsToColons(s);
    var fs := Split(t, ':');
    JoinSplit(t, ':');
    assert fs == [fs[0], fs[1]];
    JoinTwo(fs[0], fs[1]);
  }

  /** Every accepted text has one of the two layouts once dots are read as
      colons, and the result is that layout's value. */
  lemma ParseDurationSound(s: string, v: nat)
    requires ParseDuration(s) == Some(v)
    ensures var t := DotsToColons(s);
            (exists m, sec :: MinSecLayout(t, m, sec)
                              && v == Seconds(0, DecimalValue(m), DecimalValue(sec)))
            || (exists h, m, sec :: HourMinSecLayout(t, h, m, sec)
                                    && v == Seconds(DecimalValue(h), DecimalValue(m), DecimalValue(sec)))
  {
    var t := DotsToColons(s);
    var fs := Split(t, ':');
    if CountChar(t, ':') == 2 {
      SoundHourMinSec(s, v);
      assert HourMinSecLayout(t, fs[0], fs[1], fs[2]);
    } else {
      SoundMinSec(s, v);
      assert MinSecLayout(t, fs[0], fs[1]);
    }
  }

  predicate DigitsAndColons(s: string) {
    forall i :: 0 <= i < |s| ==> IsDigit(s[i]) || s[i] == ':'
  }

  lemma {:induction false} JoinOfDigitFields(fields: seq<string>)
    requires |fields| >= 1
    requires forall k :: 0 <= k < |fields| ==> AllDigits(fields[k])
    ensures DigitsAndColons(Join(fields, ':'))
    decreases |fields|
  {
    if |fields| > 1 {
      JoinOfDigitFields(fields[1..]);
      var rest := Join(fields[1..], ':');
      var j := fields[0] + [':'] + rest;
      assert Join(fields, ':') == j;
      assert AllDigits(fields[0]);
      forall i | 0 <= i < |j|
        ensures IsDigit(j[i]) || j[i] == ':'
      {
        if i < |fields[0]| {
          assert j[i] == fields[0][i];
          assert IsDigit(fields[0][i]);
        } else if i > |fields[0]| {
          var k := i - |fields[0]| - 1;
          assert j[i] == rest[k];
          assert IsDigit(rest[k]) || rest[k] == ':';
        } else {
          assert j[i] == ':';
        }
      }
    }
  }

  /** Accepted text holds only digits, `:` and `.`: a character of any other
      kind makes the parse fail. */
  lemma ParseDurationCharacters(s: string)
    ensures ParseDuration(s).Some? ==>
              forall i :: 0 <= i < |s| ==> IsDigit(s[i]) || IsSeparator(s[i])
  {
    if ParseDuration(s).Some? {
      var t := DotsToColons(s);
      var fs := Split(t, ':');
      JoinSplit(t, ':');
      JoinOfDigitFields(fs);
      forall i | 0 <= i < |s|
        ensures IsDigit(s[i]) || IsSeparator(s[i])
      {
        assert t[i] == (if s[i] == '.' then ':' else s[i]);
      }
    }
  }

  lemma TwoDigitValue(f: string)
    requires |f| == 2 && AllDigits(f)
    ensures DecimalValue(f) == DigitValue(f[0]) * 10 + DigitValue(f[1])
  {
    var head := f[..1];
    assert |head| == 1 && head[0] == f[0] && head[..0] == [];
    assert f[..|f| - 1] == head;
    assert DecimalValue(head) == DecimalValue(head[..0]) * 10 + DigitValue(head[0]);
    assert DecimalValue(head) == DigitValue(f[0]);
  }

  lemma OneDigitValue(a: char)
    requires IsDigit(a)
    ensures DecimalValue([a]) == DigitValue(a)
  {
    assert [a][..0] == [];
  }

  /** `"<a>:<b><c>"`, a one-digit minute and a two-digit second below 60,
      parses to `60*a + 10*b + c`. */
  lemma ShortMinSec(a: char, b: char, c: char)
    requires IsDigit(a) && IsDigit(b) && IsDigit(c) && b <= '5'
    ensures ParseDuration([a, ':', b, c]) == Some(60 * DigitValue(a) + 10 * DigitValue(b) + DigitValue(c))
  {
    var m, sec := [a], [b, c];
    OneDigitValue(a);
    TwoDigitValue(sec);
    ParseMinSecText(m, sec, ':');
    assert m + [':'] + sec == [a, ':', b, c];
  }

  lemma TwoTen()
    ensures ParseDuration("2:10") == Some(130)
  {
    ShortMinSec('2', '1', '0');
  }

  lemma SixOhFive()
    ensures ParseDuration("6:05") == Some(365)
  {
    ShortMinSec('6', '0', '5');
  }

  lemma OneFifty()
    ensures ParseDuration("1:50") == Some(110)
  {
    ShortMinSec('1', '5', '0');
  }

  /** The three durations of the acquisition scenario. */
  lemma ScenarioDurations()
    ensures ParseDuration("2:10") == Some(130)
    ensures ParseDuration("6:05") == Some(365)
    ensures ParseDuration("1:50") == Some(110)
  {
    TwoTen();
    SixOhFive();
    OneFifty();
  }

  /** Dotted hour layout: `"1.02.03"` is 3723 seconds. */
  lemma DottedExample()
    ensures ParseDuration("1.02.03") == Some(3723)
  {
    assert ValidField("1", MaxHour) && DecimalValue("1") == 1;
    assert ValidField("02", MaxMinute) && DecimalValue("02") == 2 by {
      TwoDigitValue("02");
    }
    assert ValidField("03", MaxSecond) && DecimalValue("03") == 3 by {
      TwoDigitValue("03");
    }
    ParseHourMinSecText("1", "02", "03", '.', '.');
    assert "1" + ['.'] + "02" + ['.'] + "03" == "1.02.03";
  }

  /** A minute field out of range is refused: `"65:00"`. */
  lemma MinuteOutOfRange()
    ensures ParseDuration("65:00").None?
  {
    ReplaceCharAbsent("65:00", '.', ':');
    var fields := ["65", "00"];
    assert Join(fields, ':') == "65:00";
    SplitJoin(fields, ':');
    TwoDigitValue("65");
  }

  /** Too many fields are refused: `"1:2:3:4"`. */
  lemma TooManyFields()
    ensures ParseDuration("1:2:3:4").None?
  {
    ReplaceCharAbsent("1:2:3:4", '.', ':');
    var fields := ["1", "2", "3", "4"];
    assert fields[1..] == ["2", "3", "4"] && fields[1..][1..] == ["3", "4"];
    assert fields[1..][1..][1..] == ["4"];
    assert Join(fields, ':') == "1:2:3:4";
    SplitJoin(fields, ':');
  }
}

=== FILE: options.dfy ===
/** The `None`/`Some` wrapper used wherever the pipeline returns Python's `None`
    or raises an exception that its caller catches. */
module Options {

  datatype Option<+T> = None | Some(value: T)

}

=== FILE: segments.dfy ===
/** `split_songs_to_segments`: cuts every converted track into consecutive
    windows of `SEGMENT_DURATION` seconds and writes each window to its own
    file. A trailing part shorter than a window is dropped.

    Lengths are whole milliseconds, as `len(AudioSegment)` reports them; the
    decoder is an oracle from wav path to length. The window count is
    `int(len / 1000 // window)`, which for these integers is
    `len / (window * 1000)`. */
module Segments {
  import opened Strings
  import TitleClean

  /** `SEGMENT_DURATION`, in seconds. */
  const SegmentSeconds: nat := 30

  /** One row of the converted table, as the segmenter reads it. */
  datatype WavTrack = WavTrack(title: string, region: string, keyword: string, wavPath: string)

  /** One window: its zero-based index, its `[startMs, endMs)` range and its file. */
  datatype Segment = Segment(index: nat, startMs: nat, endMs: nat, path: string)

  /** One row of the segment table; `path` is the `30s_path` column. */
  datatype SegmentRow = SegmentRow(title: string, region: string, keyword: string, path: string)

  /** `os.path.join(a, b)` on POSIX: an absolute `b` replaces `a`, and a `/`
      is inserted only when `a` is non-empty and does not already end in one. */
  function PathJoin(a: string, b: string): (r: string)
    ensures Absolute(b) ==> r == b
    ensures !Absolute(b) ==> |a| + |b| <= |r| <= |a| + |b| + 1
    ensures !Absolute(b) ==> r[..|a|] == a && r[|r| - |b|..] == b
    ensures !Absolute(b) && |a| > 0 && |r| == |a| + |b| + 1 ==> r[|a|] == '/'
    ensures !Absolute(b) ==> (|r| == |a| + |b| <==> |a| == 0 || a[|a| - 1] == '/')
  {
    if |b| > 0 && b[0] == '/' then b
    else if |a| == 0 || a[|a| - 1] == '/' then a + b
    else a + "/" + b
  }

  predicate Absolute(p: string) {
    |p| > 0 && p[0] == '/'
  }

  /** `region.lower().replace(' ', '_')`: nothing is stripped here, so the
      directory name keeps every character of the region, position for
      position, with spaces turned into `_` and capitals into small letters. */
  function RegionDir(region: string): (r: string)
    ensures |r| == |region|
    ensures ' ' !in r
    ensures forall i :: 0 <= i < |r| ==> !('A' <= r[i] <= 'Z')
    ensures forall i :: 0 <= i < |r| ==> (r[i] == '_' <==> region[i] == ' ' || region[i] == '_')
    ensures forall i :: 0 <= i < |r| && region[i] != ' ' ==> TitleClean.LowerChar(r[i]) == TitleClean.LowerChar(region[i])
  {
    ReplaceChar(TitleClean.Lower(region), ' ', '_')
  }

  /** Normalising a directory name again changes nothing. */
  lemma RegionDirIdempotent(region: string)
    ensures RegionDir(RegionDir(region)) == RegionDir(region)
  {
  }

  /** `os.path.join(output_base_folder, norm_region, norm_title)`. */
  function OutputDir(base: string, region: string, title: string): string {
    PathJoin(PathJoin(base, RegionDir(region)), TitleClean.Clean(title))
  }

  /** `f"{norm_title}_segment{i + 1}.wav"`: file names count from one. */
  function SegmentName(title: string, i: nat): string {
    TitleClean.Clean(title) + "_segment" + NatToString(i + 1) + ".wav"
  }

  function SegmentFile(base: string, region: string, title: string, i: nat): string {
    PathJoin(OutputDir(base, region, title), SegmentName(title, i))
  }

  /** A window of `seconds` seconds in milliseconds, as the loop computes its bounds. */
  function WindowMs(seconds: nat): nat {
    seconds * 1000
  }

  /** `len // w` whole windows fit into `len` milliseconds, and no more. */
  lemma WindowCountBounds(lengthMs: nat, w: nat)
    requires w > 0
    ensures (lengthMs / w) * w <= lengthMs < (lengthMs / w) * w + w
  {
  }

  lemma WindowInside(lengthMs: nat, w: nat, i: nat)
    requires w > 0 && i < lengthMs / w
    ensures i * w + w <= lengthMs
  {
    var n := lengthMs / w;
    WindowCountBounds(lengthMs, w);
    NextStart(w, i);
    MulMonotone(i + 1, n, w);
  }

  /** The windows of one track of `lengthMs` milliseconds cut into windows of
      `w` milliseconds: as many as fit whole, the last ending less than a
      window before the end; window `i` covers `[i*w, i*w + w)` and is written
      to `<base>/<region>/<id>/<id>_segment<i+1>.wav`. */
  function SplitTrack(base: string, title: string, region: string, lengthMs: nat, w: nat)
    : (segs: seq<Segment>)
    requires w > 0
    ensures |segs| * w <= lengthMs < |segs| * w + w
    ensures forall i :: 0 <= i < |segs| ==>
              && segs[i].index == i
              && segs[i].startMs == i * w
              && segs[i].endMs == segs[i].startMs + w
              && segs[i].endMs <= lengthMs
              && segs[i].path == SegmentFile(base, region, title, i)
  {
    var n := lengthMs / w;
    WindowCountBounds(lengthMs, w);
    var segs := seq(n, i requires 0 <= i < n => Segment(i, i * w, i * w + w, SegmentFile(base, region, title, i)));
    forall i | 0 <= i < n
      ensures segs[i].endMs <= lengthMs
    {
      WindowInside(lengthMs, w, i);
    }
    segs
  }

  /** Consecutive windows meet: each starts where the previous one ends. */
  lemma WindowsContiguous(base: string, title: string, region: string, lengthMs: nat, w: nat, i: nat)
    requires w > 0
    requires i + 1 < |SplitTrack(base, title, region, lengthMs, w)|
    ensures var segs := SplitTrack(base, title, region, lengthMs, w);
            segs[i].endMs == segs[i + 1].startMs
  {
    NextStart(w, i);
  }

  lemma NextStart(w: nat, i: nat)
    ensures i * w + w == (i + 1) * w
  {
  }

  /** Two windows numbered `j < k` are at least one window apart. */
  lemma WindowsOrdered(w: nat, j: nat, k: nat)
    requires j < k
    ensures j * w + w <= k * w
  {
    NextStart(w, j);
    MulMonotone(j + 1, k, w);
  }

  lemma MulMonotone(a: nat, b: nat, w: nat)
    requires a <= b
    ensures a * w <= b * w
  {
  }

  /** The only window number `j` with `j*w <= t < j*w + w` is `t / w`. */
  lemma UniqueWindow(w: nat, t: nat, j: nat)
    requires w > 0 && j * w <= t < j * w + w
    ensures j == t / w
  {
    var k := t / w;
    WindowCountBounds(t, w);
    if j < k {
      WindowsOrdered(w, j, k);
    } else if j > k {
      WindowsOrdered(w, k, j);
    }
  }

  /** Every instant before the end of the last window lies in exactly one
      window, the one numbered `t / w`: the windows neither overlap nor
      leave gaps. */
  lemma SegmentsPartitionTime(base: string, title: string, region: string, lengthMs: nat, w: nat, t: nat)
    requires w > 0
    requires t < |SplitTrack(base, title, region, lengthMs, w)| * w
    ensures var segs := SplitTrack(base, title, region, lengthMs, w);
            && t / w < |segs|
            && segs[t / w].startMs <= t < segs[t / w].endMs
            && forall j :: 0 <= j < |segs| && segs[j].startMs <= t < segs[j].endMs ==> j == t / w
  {
    var segs := SplitTrack(base, title, region, lengthMs, w);
    var n := |segs|;
    var k := t / w;
    WindowCountBounds(t, w);
    assert k < n by {
      if n <= k {
        MulMonotone(n, k, w);
      }
    }
    assert segs[k].startMs == k * w && segs[k].endMs == k * w + w;
    forall j | 0 <= j < n && segs[j].startMs <= t < segs[j].endMs
      ensures j == k
    {
      assert segs[j].startMs == j * w && segs[j].endMs == j * w + w;
      UniqueWindow(w, t, j);
    }
  }

  lemma NameDoesNotStartWithSlash(title: string, i: nat)
    ensures SegmentName(title, i)[0] != '/'
  {
    var id := TitleClean.Clean(title);
    TitleClean.CleanAlphabet(title);
    if |id| > 0 {
      assert SegmentName(title, i)[0] == id[0];
    }
  }

  /** Joining one directory with two relative names keeps them apart. */
  lemma PathJoinInjective(dir: string, a: string, b: string)
    requires |a| > 0 && a[0] != '/' && |b| > 0 && b[0] != '/'
    requires PathJoin(dir, a) == PathJoin(dir, b)
    ensures a == b
  {
    var sep: string := if |dir| == 0 || dir[|dir| - 1] == '/' then "" else "/";
    assert PathJoin(dir, a) == (dir + sep) + a;
    assert PathJoin(dir, b) == (dir + sep) + b;
    assert a == ((dir + sep) + a)[|dir + sep|..];
    assert b == ((dir + sep) + b)[|dir + sep|..];
  }

  lemma SegmentNameInjective(title: string, i: nat, j: nat)
    requires SegmentName(title, i) == SegmentName(title, j)
    ensures i == j
  {
    var a := SegmentName(title, i);
    var b := SegmentName(title, j);
    var prefix := TitleClean.Clean(title) + "_segment";
    var si := NatToString(i + 1);
    var sj := NatToString(j + 1);
    assert a == prefix + si + ".wav" && b == prefix + sj + ".wav";
    assert |si| == |sj|;
    assert si == a[|prefix|..|prefix| + |si|];
    assert sj == b[|prefix|..|prefix| + |sj|];
    NatToStringInjective(i + 1, j + 1);
  }

  /** Different windows of one track go to different files. */
  lemma SegmentFilesDistinct(base: string, region: string, title: string, i: nat, j: nat)
    requires i != j
    ensures SegmentFile(base, region, title, i) != SegmentFile(base, region, title, j)
  {
    NameDoesNotStartWithSlash(title, i);
    NameDoesNotStartWithSlash(title, j);
    if SegmentFile(base, region, title, i) == SegmentFile(base, region, title, j) {
      PathJoinInjective(OutputDir(base, region, title), SegmentName(title, i), SegmentName(title, j));
      SegmentNameInjective(title, i, j);
    }
  }

  /** A 95-second track with 30-second windows gives three windows, 0-30 s,
      30-60 s and 60-90 s; the last 5 seconds are dropped. */
  lemma NinetyFiveSeconds(base: string, title: string, region: string)
    ensures var segs := SplitTrack(base, title, region, 95000, WindowMs(SegmentSeconds));
            && |segs| == 3
            && segs[0].startMs == 0 && segs[0].endMs == 30000
            && segs[1].startMs == 30000 && segs[1].endMs == 60000
            && segs[2].startMs == 60000 && segs[2].endMs == 90000
  {
  }

  /** The rows one track contributes to the segment table. */
  function TrackRows(row: WavTrack, audioLength: string -> nat, base: string,
                     w: nat): (out: seq<SegmentRow>)
    requires w > 0
    ensures |out| == audioLength(row.wavPath) / w
    ensures forall i :: 0 <= i < |out| ==>
              out[i] == SegmentRow(row.title, row.region, row.keyword,
                                   SegmentFile(base, row.region, row.title, i))
  {
    var segs := SplitTrack(base, row.title, row.region, audioLength(row.wavPath), w);
    seq(|segs|, i requires 0 <= i < |segs| => SegmentRow(row.title, row.region, row.keyword, segs[i].path))
  }

  /** The reference segment table: each track's rows, in table order. */
  function SegmentTable(rows: seq<WavTrack>, audioLength: string -> nat, base: string,
                        w: nat): seq<SegmentRow>
    requires w > 0
  {
    if |rows| == 0 then []
    else SegmentTable(rows[..|rows| - 1], audioLength, base, w)
         + TrackRows(rows[|rows| - 1], audioLength, base, w)
  }

  /** The total number of whole windows over all tracks. */
  function TotalWindows(rows: seq<WavTrack>, audioLength: string -> nat, w: nat): nat
    requires w > 0
  {
    if |rows| == 0 then 0
    else TotalWindows(rows[..|rows| - 1], audioLength, w)
         + audioLength(rows[|rows| - 1].wavPath) / w
  }

  /** The table holds one row per whole window, over all tracks. */
  lemma {:induction false} SegmentTableSize(rows: seq<WavTrack>, audioLength: string -> nat,
                                            base: string, w: nat)
    requires w > 0
    ensures |SegmentTable(rows, audioLength, base, w)| == TotalWindows(rows, audioLength, w)
    decreases |rows|
  {
    if |rows| > 0 {
      SegmentTableSize(rows[..|rows| - 1], audioLength, base, w);
    }
  }

  lemma TrackRowsStep(row: WavTrack, audioLength: string -> nat, base: string, w: nat, i: nat)
    requires w > 0 && i < audioLength(row.wavPath) / w
    ensures var track := TrackRows(row, audioLength, base, w);
            track[..i + 1] == track[..i]
              + [SegmentRow(row.title, row.region, row.keyword, SegmentFile(base, row.region, row.title, i))]
  {
    var track := TrackRows(row, audioLength, base, w);
    SnocSlice(track, i);
  }

  lemma SnocSlice<T>(s: seq<T>, i: nat)
    requires i < |s|
    ensures s[..i + 1] == s[..i] + [s[i]]
  {
  }

  lemma AppendRow<T>(table: seq<T>, prefix: seq<T>, next: T)
    ensures (table + prefix) + [next] == table + (prefix + [next])
  {
  }

  /** The inner loop for one track: one row per whole window, each window
      exported to the file its row names. */
  method ExportTrack(row: WavTrack, audioLength: string -> nat, base: string, w: nat,
                     table: seq<SegmentRow>)
    returns (out: seq<SegmentRow>)
    requires w > 0
    ensures out == table + TrackRows(row, audioLength, base, w)
  {
    var count := audioLength(row.wavPath) / w;
    ghost var track := TrackRows(row, audioLength, base, w);
    out := table;
    var i := 0;
    while i < count
      invariant 0 <= i <= count
      invariant out == table + track[..i]
    {
      var file := SegmentFile(base, row.region, row.title, i);
      var next := SegmentRow(row.title, row.region, row.keyword, file);
      TrackRowsStep(row, audioLength, base, w, i);
      AppendRow(table, track[..i], next);
      out := out + [next];
      i := i + 1;
    }
    assert track[..i] == track;
  }

  /** `split_songs_to_segments(df, base)` with windows of `seconds` seconds:
      the outer loop over tracks appends each track's rows, in table order. */
  method SplitSongsToSegments(rows: seq<WavTrack>, audioLength: string -> nat, base: string,
                              seconds: nat)
    returns (out: seq<SegmentRow>)
    requires seconds > 0
    ensures out == SegmentTable(rows, audioLength, base, WindowMs(seconds))
    ensures |out| == TotalWindows(rows, audioLength, WindowMs(seconds))
  {
    var w := WindowMs(seconds);
    out := [];
    var k := 0;
    while k < |rows|
      invariant 0 <= k <= |rows|
      invariant out == SegmentTable(rows[..k], audioLength, base, w)
    {
      out := ExportTrack(rows[k], audioLength, base, w, out);
      assert rows[..k + 1][..k] == rows[..k];
      k := k + 1;
    }
    assert rows[..k] == rows;
    SegmentTableSize(rows, audioLength, base, w);
  }
}

=== FILE: strings.dfy ===
/** String helpers standing in for the Python built-ins the pipeline uses:
    `str.replace`, `str.count`, splitting on a separator, `int(...)` on a digit
    string and `str(int)`. Strings are `seq<char>`. */
module Strings {

  predicate IsDigit(c: char) {
    '0' <= c <= '9'
  }

  predicate AllDigits(s: string) {
    forall i :: 0 <= i < |s| ==> IsDigit(s[i])
  }

  function DigitValue(c: char): nat
    requires IsDigit(c)
  {
    c as int - '0' as int
  }

  function DigitChar(d: nat): char
    requires d < 10
  {
    ('0' as int + d) as char
  }

  /** The value of a decimal digit string, most significant digit first. */
  function DecimalValue(s: string): nat
    requires AllDigits(s)
  {
    if |s| == 0 then 0 else DecimalValue(s[..|s| - 1]) * 10 + DigitValue(s[|s| - 1])
  }

  /** Python's `str(n)` for a non-negative integer: no leading zeros. */
  function NatToString(n: nat): (r: string)
    ensures 1 <= |r|
    ensures AllDigits(r)
    ensures DecimalValue(r) == n
    ensures |r| > 1 ==> r[0] != '0'
  {
    if n < 10 then [DigitChar(n)]
    else
      var prefix := NatToString(n / 10);
      var r := prefix + [DigitChar(n % 10)];
      assert r[..|r| - 1] == prefix;
      r
  }

  /** `str(n)` is injective, because `DecimalValue` undoes it. */
  lemma NatToStringInjective(m: nat, n: nat)
    requires NatToString(m) == NatToString(n)
    ensures m == n
  {
  }

  /** `s.count(c)` for a one-character pattern. */
  function CountChar(s: string, c: char): nat {
    if |s| == 0 then 0 else (if s[0] == c then 1 else 0) + CountChar(s[1..], c)
  }

  /** `s.replace(a, b)` for one-character `a` and `b`. */
  function ReplaceChar(s: string, a: char, b: char): (r: string)
    ensures |r| == |s|
    ensures forall i :: 0 <= i < |s| ==> r[i] == (if s[i] == a then b else s[i])
    ensures a != b ==> a !in r
  {
    seq(|s|, i requires 0 <= i < |s| => if s[i] == a then b else s[i])
  }

  lemma ReplaceCharAbsent(s: string, a: char, b: char)
    requires a !in s
    ensures ReplaceChar(s, a, b) == s
  {
  }

  /** The substitution maps the first character and recurses on the rest. */
  lemma ReplaceCharCons(c: char, rest: string, a: char, b: char)
    ensures ReplaceChar([c] + rest, a, b) == [if c == a then b else c] + ReplaceChar(rest, a, b)
  {
    var s := [c] + rest;
    var r := ReplaceChar(s, a, b);
    var t := ReplaceChar(rest, a, b);
    var q := [if c == a then b else c] + t;
    assert |r| == |q|;
    forall i | 0 <= i < |r|
      ensures r[i] == q[i]
    {
      if i > 0 {
        assert s[i] == rest[i - 1];
        assert q[i] == t[i - 1];
      }
    }
    assert r == q;
  }

  /** Splits `s` at every occurrence of `sep`; always at least one field. */
  function Split(s: string, sep: char): (fields: seq<string>)
    ensures |fields| == CountChar(s, sep) + 1
    ensures forall k :: 0 <= k < |fields| ==> sep !in fields[k]
  {
    if |s| == 0 then [""]
    else
      var rest := Split(s[1..], sep);
      if s[0] == sep then [""] + rest
      else [[s[0]] + rest[0]] + rest[1..]
  }

  /** The inverse of `Split`: the fields glued back with `sep` between them. */
  function Join(fields: seq<string>, sep: char): string
    requires |fields| >= 1
  {
    if |fields| == 1 then fields[0] else fields[0] + [sep] + Join(fields[1..], sep)
  }

  lemma {:induction false} JoinSplit(s: string, sep: char)
    ensures Join(Split(s, sep), sep) == s
    decreases |s|
  {
    if |s| > 0 {
      var rest := Split(s[1..], sep);
      JoinSplit(s[1..], sep);
      if s[0] == sep {
        assert Split(s, sep)[1..] == rest;
      } else if |rest| == 1 {
        assert s == [s[0]] + s[1..];
      } else {
        var fields := Split(s, sep);
        assert fields[1..] == rest[1..];
        assert Join(rest, sep) == rest[0] + [sep] + Join(rest[1..], sep);
        assert s == [s[0]] + s[1..];
      }
    }
  }

  lemma {:induction false} SplitFieldPrefix(f: string, rest: string, sep: char)
    requires sep !in f
    ensures Split(f + [sep] + rest, sep) == [f] + Split(rest, sep)
    decreases |f|
  {
    if |f| == 0 {
      assert f + [sep] + rest == [sep] + rest;
      assert ([sep] + rest)[1..] == rest;
    } else {
      SplitFieldPrefix(f[1..], rest, sep);
      var s := f + [sep] + rest;
      assert s[0] == f[0];
      assert s[1..] == f[1..] + [sep] + rest;
      assert f == [f[0]] + f[1..];
    }
  }

  lemma {:induction false} SplitNoSep(f: string, sep: char)
    requires sep !in f
    ensures Split(f, sep) == [f]
    decreases |f|
  {
    if |f| > 0 {
      SplitNoSep(f[1..], sep);
      assert f == [f[0]] + f[1..];
    }
  }

  /** `Split` undoes `Join` when no field contains the separator. */
  lemma {:induction false} SplitJoin(fields: seq<string>, sep: char)
    requires |fields| >= 1
    requires forall k :: 0 <= k < |fields| ==> sep !in fields[k]
    ensures Split(Join(fields, sep), sep) == fields
    decreases |fields|
  {
    if |fields| == 1 {
      SplitNoSep(fields[0], sep);
    } else {
      SplitJoin(fields[1..], sep);
      SplitFieldPrefix(fields[0], Join(fields[1..], sep), sep);
      assert fields == [fields[0]] + fields[1..];
    }
  }

  /** Does `pat` occur in `s` at some position? */
  predicate Occurs(pat: string, s: string) {
    exists i :: 0 <= i <= |s| && pat <= s[i..]
  }

  /** `s.replace(pat, rep)`: every leftmost, non-overlapping occurrence of a
      non-empty `pat` replaced by `rep`. An occurrence at the front becomes
      `rep`, a same-length replacement keeps the length, and replacing `pat`
      by itself is the identity. */
  function ReplaceAll(s: string, pat: string, rep: string): (r: string)
    requires |pat| > 0
    ensures pat <= s ==> rep <= r
    ensures |rep| == |pat| ==> |r| == |s|
    ensures rep == pat ==> r == s
    decreases |s|
  {
    if |s| == 0 then []
    else if pat <= s then
      var rest := ReplaceAll(s[|pat|..], pat, rep);
      assert s == pat + s[|pat|..];
      rep + rest
    else
      var rest := ReplaceAll(s[1..], pat, rep);
      assert s == [s[0]] + s[1..];
      [s[0]] + rest
  }

  /** A prefix in which no occurrence of `pat` starts is copied unchanged. */
  lemma {:induction false} ReplaceAllSkip(x: string, y: string, pat: string, rep: string)
    requires |pat| > 0
    requires forall i :: 0 <= i < |x| ==> !(pat <= (x + y)[i..])
    ensures ReplaceAll(x + y, pat, rep) == x + ReplaceAll(y, pat, rep)
    decreases |x|
  {
    if |x| > 0 {
      var s := x + y;
      assert !(pat <= s[0..]);
      assert s[0..] == s;
      assert s[1..] == x[1..] + y;
      forall i | 0 <= i < |x[1..]|
        ensures !(pat <= (x[1..] + y)[i..])
      {
        assert (x[1..] + y)[i..] == s[i + 1..];
      }
      ReplaceAllSkip(x[1..], y, pat, rep);
      assert ReplaceAll(s, pat, rep) == [s[0]] + ReplaceAll(s[1..], pat, rep);
      assert x == [x[0]] + x[1..];
    } else {
      assert x + y == y;
    }
  }

  /** An occurrence of `pat` at the front is replaced and scanning resumes after it. */
  lemma ReplaceAllHit(y: string, pat: string, rep: string)
    requires |pat| > 0
    ensures ReplaceAll(pat + y, pat, rep) == rep + ReplaceAll(y, pat, rep)
  {
    assert (pat + y)[|pat|..] == y;
  }

  /** When the first character of `pat` does not occur in `head`, only the
      `pat` appended to it is replaced. */
  lemma ReplaceSuffix(head: string, pat: string, rep: string)
    requires |pat| > 0 && pat[0] !in head
    ensures ReplaceAll(head + pat, pat, rep) == head + rep
  {
    forall i | 0 <= i < |head|
      ensures !(pat <= (head + pat)[i..])
    {
      assert (head + pat)[i..][0] == head[i];
    }
    ReplaceAllSkip(head, pat, pat, rep);
    assert pat + [] == pat;
    ReplaceAllHit([], pat, rep);
  }

  /** A string in which `pat` does not occur is returned unchanged. */
  lemma ReplaceAllAbsent(s: string, pat: string, rep: string)
    requires |pat| > 0
    requires !Occurs(pat, s)
    ensures ReplaceAll(s, pat, rep) == s
  {
    assert s + [] == s;
    forall i | 0 <= i < |s|
      ensures !(pat <= (s + [])[i..])
    {
      assert !(pat <= s[i..]);
    }
    ReplaceAllSkip(s, [], pat, rep);
  }

  /** No occurrence of `pat` starts inside `t`, even when `t` is followed by a
      string whose first character does not appear in `pat`. */
  lemma NoOccurrenceAcross(t: string, tail: string, pat: string)
    requires |pat| > 0 && |tail| > 0 && tail[0] !in pat
    requires !Occurs(pat, t)
    ensures forall i :: 0 <= i < |t| ==> !(pat <= (t + tail)[i..])
  {
    forall i | 0 <= i < |t|
      ensures !(pat <= (t + tail)[i..])
    {
      var k := |t| - i;
      if k >= |pat| {
        assert !(pat <= t[i..]);
        assert (t + tail)[i..][..|pat|] == t[i..][..|pat|];
      } else {
        assert (t + tail)[i..][k] == tail[0];
        assert pat[k] != tail[0];
      }
    }
  }

  /** `a` is a subsequence of `b` (elements kept in order, some dropped). */
  predicate Subseq<T(==)>(a: seq<T>, b: seq<T>)
    decreases |b|
  {
    if |a| == 0 then true
    else if |b| == 0 then false
    else if a[0] == b[0] then Subseq(a[1..], b[1..])
    else Subseq(a, b[1..])
  }

  /** One more element in front of `b` keeps `a` a subsequence. */
  lemma {:induction false} SubseqCons<T>(a: seq<T>, y: T, b: seq<T>)
    requires Subseq(a, b)
    ensures Subseq(a, [y] + b)
    decreases |b| + 1, 0
  {
    assert ([y] + b)[1..] == b;
    if |a| > 0 && a[0] == y {
      SubseqDropHead(a, b);
    }
  }

  lemma {:induction false} SubseqDropHead<T>(a: seq<T>, b: seq<T>)
    requires |a| > 0 && Subseq(a, b)
    ensures Subseq(a[1..], b)
    decreases |b|, 1
  {
    if a[0] == b[0] {
      SubseqCons(a[1..], b[0], b[1..]);
    } else {
      SubseqDropHead(a, b[1..]);
      SubseqCons(a[1..], b[0], b[1..]);
    }
    assert [b[0]] + b[1..] == b;
  }

  lemma {:induction false} SubseqPrepend<T>(a: seq<T>, x: seq<T>, b: seq<T>)
    requires Subseq(a, b)
    ensures Subseq(a, x + b)
    decreases |x|
  {
    if |x| > 0 {
      SubseqPrepend(a, x[1..], b);
      SubseqCons(a, x[0], x[1..] + b);
      assert [x[0]] + (x[1..] + b) == x + b;
    } else {
      assert x + b == b;
    }
  }

  /** Subsequences concatenate. */
  lemma {:induction false} SubseqConcat<T>(a1: seq<T>, b1: seq<T>, a2: seq<T>, b2: seq<T>)
    requires Subseq(a1, b1) && Subseq(a2, b2)
    ensures Subseq(a1 + a2, b1 + b2)
    decreases |b1|
  {
    if |a1| == 0 {
      assert a1 + a2 == a2;
      SubseqPrepend(a2, b1, b2);
    } else {
      assert (a1 + a2)[0] == a1[0] && (a1 + a2)[1..] == a1[1..] + a2;
      assert (b1 + b2)[0] == b1[0] && (b1 + b2)[1..] == b1[1..] + b2;
      if a1[0] == b1[0] {
        SubseqConcat(a1[1..], b1[1..], a2, b2);
      } else {
        SubseqConcat(a1, b1[1..], a2, b2);
      }
    }
  }

  /** Subsequence is transitive. */
  lemma {:induction false} SubseqTrans<T>(a: seq<T>, b: seq<T>, c: seq<T>)
    requires Subseq(a, b) && Subseq(b, c)
    ensures Subseq(a, c)
    decreases |c|
  {
    if |a| > 0 {
      if b[0] == c[0] {
        if a[0] == b[0] {
          SubseqTrans(a[1..], b[1..], c[1..]);
        } else {
          SubseqTrans(a, b[1..], c[1..]);
        }
      } else {
        SubseqTrans(a, b, c[1..]);
        if a[0] == c[0] {
          SubseqDropHead(a, c[1..]);
        }
      }
    }
  }

  lemma {:induction false} SubseqRefl<T>(a: seq<T>)
    ensures Subseq(a, a)
    decreases |a|
  {
    if |a| > 0 {
      SubseqRefl(a[1..]);
    }
  }
}

=== FILE: title_clean.dfy ===
/** `yt_title_clean`: turns a video title into the identifier used as the file
    name (and so as the download cache key) of the track.

    The source lower-cases, turns every space into `_`, collapses runs of two or
    more `_` into one, and only then deletes every character outside
    `[a-z0-9_]`. Because deletion comes last it can bring two `_` together
    again, so the function is not idempotent. */
module TitleClean {
  import opened Strings

  /** `str.lower()` on one character; only ASCII letters are mapped. */
  function LowerChar(c: char): char {
    if 'A' <= c <= 'Z' then (c as int + 32) as char else c
  }

  function Lower(s: string): string {
    seq(|s|, i requires 0 <= i < |s| => LowerChar(s[i]))
  }

  /** The characters `[a-z0-9_]` that survive the final substitution. */
  predicate Allowed(c: char) {
    'a' <= c <= 'z' || '0' <= c <= '9' || c == '_'
  }

  predicate AllAllowed(s: string) {
    forall i :: 0 <= i < |s| ==> Allowed(s[i])
  }

  /** No two adjacent underscores. */
  predicate NoDoubleUnderscore(s: string) {
    forall i :: 0 <= i < |s| - 1 ==> !(s[i] == '_' && s[i + 1] == '_')
  }

  /** The strings the normaliser leaves alone. */
  predicate IsCleanIdentifier(s: string) {
    AllAllowed(s) && NoDoubleUnderscore(s)
  }

  /** The string with every underscore deleted. */
  function WithoutUnderscores(s: string): string {
    if |s| == 0 then [] else (if s[0] == '_' then [] else [s[0]]) + WithoutUnderscores(s[1..])
  }

  /** The number of positions where an underscore follows an underscore. */
  function DoubleUnderscores(s: string): nat {
    if |s| <= 1 then 0
    else (if s[0] == '_' && s[1] == '_' then 1 else 0) + DoubleUnderscores(s[1..])
  }

  /** The number of characters of `[a-z0-9_]`. */
  function CountAllowed(s: string): nat {
    if |s| == 0 then 0 else (if Allowed(s[0]) then 1 else 0) + CountAllowed(s[1..])
  }

  /** `re.sub(r'_{2,}', '_', s)`: each run of underscores becomes one. The
      result keeps the input's characters in order and drops exactly one
      underscore for each underscore that follows another. */
  function CollapseUnderscores(s: string): (r: string)
    ensures Subseq(r, s)
    ensures |r| == |s| - DoubleUnderscores(s)
    ensures NoDoubleUnderscore(r)
    ensures NoDoubleUnderscore(s) ==> r == s
    ensures WithoutUnderscores(r) == WithoutUnderscores(s)
    ensures '_' in r <==> '_' in s
    ensures forall i :: 0 <= i < |r| ==> r[i] in s
    ensures |s| > 0 ==> |r| > 0 && r[0] == s[0]
    decreases |s|
  {
    if |s| <= 1 then
      SubseqRefl(s);
      s
    else if s[0] == '_' && s[1] == '_' then
      var r := CollapseUnderscores(s[1..]);
      assert s == [s[0]] + s[1..];
      SubseqCons(r, s[0], s[1..]);
      r
    else
      var rest := CollapseUnderscores(s[1..]);
      var r := [s[0]] + rest;
      assert r[1..] == rest;
      assert s == [s[0]] + s[1..];
      r
  }

  /** `re.sub(r'[^a-z0-9_]', '', s)`: deletes every disallowed character and
      keeps the others in order. Being a subsequence of `s` made of allowed
      characters only, and as long as `s` has allowed characters, the result
      is exactly the allowed characters of `s`. */
  function StripDisallowed(s: string): (r: string)
    ensures Subseq(r, s)
    ensures |r| == CountAllowed(s)
    ensures AllAllowed(r)
    ensures forall c :: c in r <==> c in s && Allowed(c)
    ensures AllAllowed(s) ==> r == s
    ensures |r| <= |s|
    decreases |s|
  {
    if |s| == 0 then []
    else
      var rest := StripDisallowed(s[1..]);
      assert s == [s[0]] + s[1..];
      if Allowed(s[0]) then
        var r := [s[0]] + rest;
        assert r[1..] == rest;
        r
      else
        SubseqCons(rest, s[0], s[1..]);
        rest
  }

  /** Deleting underscores decides the first character and recurses on the rest. */
  lemma WithoutUnderscoresCons(c: char, rest: string)
    ensures WithoutUnderscores([c] + rest)
            == (if c == '_' then [] else [c]) + WithoutUnderscores(rest)
  {
    assert ([c] + rest)[1..] == rest;
  }

  /** The two deletions commute: either way what is left is the letters and
      digits of `s`, in order. */
  lemma {:induction false} StripWithoutUnderscores(s: string)
    ensures WithoutUnderscores(StripDisallowed(s)) == StripDisallowed(WithoutUnderscores(s))
    decreases |s|
  {
    if |s| > 0 {
      var c, t := s[0], s[1..];
      assert s == [c] + t;
      StripWithoutUnderscores(t);
      StripCons(c, t);
      WithoutUnderscoresCons(c, t);
      var st, wt := StripDisallowed(t), WithoutUnderscores(t);
      if c == '_' {
        WithoutUnderscoresCons(c, st);
        assert WithoutUnderscores(StripDisallowed(s)) == WithoutUnderscores(st);
        assert WithoutUnderscores(s) == wt;
      } else if Allowed(c) {
        WithoutUnderscoresCons(c, st);
        StripCons(c, wt);
        assert WithoutUnderscores(StripDisallowed(s)) == [c] + WithoutUnderscores(st);
        assert WithoutUnderscores(s) == [c] + wt;
      } else {
        StripCons(c, wt);
        assert WithoutUnderscores(StripDisallowed(s)) == WithoutUnderscores(st);
        assert WithoutUnderscores(s) == [c] + wt;
      }
    }
  }

  /** A space read as an underscore is lost to the underscore deletion just
      as the space itself is lost to the disallowed-character deletion. */
  lemma {:induction false} SpacesVanish(s: string)
    ensures WithoutUnderscores(StripDisallowed(ReplaceChar(s, ' ', '_')))
            == WithoutUnderscores(StripDisallowed(s))
    decreases |s|
  {
    if |s| > 0 {
      var c, t := s[0], s[1..];
      assert s == [c] + t;
      SpacesVanish(t);
      ReplaceCharCons(c, t, ' ', '_');
      var d := if c == ' ' then '_' else c;
      var rt := ReplaceChar(t, ' ', '_');
      assert ReplaceChar(s, ' ', '_') == [d] + rt;
      StripCons(d, rt);
      StripCons(c, t);
      if c == ' ' {
        assert StripDisallowed([d] + rt) == ['_'] + StripDisallowed(rt);
        WithoutUnderscoresCons('_', StripDisallowed(rt));
        assert StripDisallowed(s) == StripDisallowed(t);
      } else if Allowed(c) {
        assert StripDisallowed([d] + rt) == [c] + StripDisallowed(rt);
        assert StripDisallowed(s) == [c] + StripDisallowed(t);
        WithoutUnderscoresCons(c, StripDisallowed(rt));
        WithoutUnderscoresCons(c, StripDisallowed(t));
      } else {
        assert StripDisallowed([d] + rt) == StripDisallowed(rt);
        assert StripDisallowed(s) == StripDisallowed(t);
      }
    }
  }

  /** `yt_title_clean(title)`: an identifier over `[a-z0-9_]`, obtained from
      the lower-cased title with spaces read as underscores by dropping
      characters only, never adding or reordering any. Only underscores and
      characters outside `[a-z0-9_]` are dropped: the letters and digits of
      the lower-cased title all survive, in order. */
  function Clean(title: string): (r: string)
    ensures AllAllowed(r)
    ensures Subseq(r, ReplaceChar(Lower(title), ' ', '_'))
    ensures |r| <= |title|
    ensures WithoutUnderscores(r) == WithoutUnderscores(StripDisallowed(Lower(title)))
  {
    var spaced := ReplaceChar(Lower(title), ' ', '_');
    var collapsed := CollapseUnderscores(spaced);
    var r := StripDisallowed(collapsed);
    SubseqTrans(r, collapsed, spaced);
    StripWithoutUnderscores(collapsed);
    StripWithoutUnderscores(spaced);
    SpacesVanish(Lower(title));
    r
  }

  /** The identifier only ever contains `[a-z0-9_]`; in particular it has no
      `/`, `.` or space and is safe as a file name. */
  lemma CleanAlphabet(title: string)
    ensures AllAllowed(Clean(title))
    ensures '/' !in Clean(title) && '.' !in Clean(title) && ' ' !in Clean(title)
  {
  }

  lemma LowerAllowed(s: string)
    requires AllAllowed(s)
    ensures Lower(s) == s
  {
  }

  /** A string of `[a-z0-9_]` without a `__` run is its own identifier. */
  lemma CleanFixedPoint(s: string)
    requires IsCleanIdentifier(s)
    ensures Clean(s) == s
  {
    LowerAllowed(s);
    ReplaceCharAbsent(s, ' ', '_');
  }

  /** Collapsing keeps an `[a-z0-9_]` string inside that alphabet. */
  lemma CollapseKeepsAllowed(s: string)
    requires AllAllowed(s)
    ensures AllAllowed(CollapseUnderscores(s))
  {
    var r := CollapseUnderscores(s);
    forall i | 0 <= i < |r|
      ensures Allowed(r[i])
    {
      assert r[i] in s;
    }
  }

  /** Cleaning an identifier a second time only collapses the `__` runs that
      the first deletion created. */
  lemma CleanTwice(title: string)
    ensures Clean(Clean(title)) == CollapseUnderscores(Clean(title))
  {
    var c := Clean(title);
    LowerAllowed(c);
    ReplaceCharAbsent(c, ' ', '_');
    CollapseKeepsAllowed(c);
  }

  /** Cleaning is idempotent on a title exactly when its identifier has no `__`. */
  lemma CleanIdempotentIff(title: string)
    ensures Clean(Clean(title)) == Clean(title) <==> NoDoubleUnderscore(Clean(title))
  {
    CleanTwice(title);
  }

  /* The examples below are proved one character at a time, through
     StripCons and CollapseCons, with the sequence displays they take apart
     stated once in ExampleDisplays: left to unfold the recursive functions
     over whole displays on its own, the solver's cost varies by an order of
     magnitude from one random seed to the next. */

  /** The deletion decides the first character and recurses on the rest. */
  lemma StripCons(c: char, rest: string)
    ensures StripDisallowed([c] + rest)
            == (if Allowed(c) then [c] + StripDisallowed(rest) else StripDisallowed(rest))
  {
    assert ([c] + rest)[1..] == rest;
  }

  /** The collapse drops a first underscore that another follows, keeps any
      other first character, and recurses on the rest. */
  lemma CollapseCons(c: char, rest: string)
    ensures CollapseUnderscores([c] + rest)
            == (if c == '_' && |rest| > 0 && rest[0] == '_' then CollapseUnderscores(rest)
                else [c] + CollapseUnderscores(rest))
  {
    var s := [c] + rest;
    assert s[1..] == rest;
    if |rest| == 0 {
      assert s == [c] + [];
    } else {
      assert s[0] == c && s[1] == rest[0];
    }
  }

  /** A lower-case letter: unchanged by lower-casing, allowed, not `_`. */
  predicate Letter(c: char) {
    'a' <= c <= 'z'
  }

  /** The sequence displays the examples take apart, each as a head and a tail. */
  lemma ExampleDisplays(a: char, b: char)
    ensures ['-', '_', b] == ['-'] + ['_', b]
    ensures ['_', '-', '_', b] == ['_'] + ['-', '_', b]
    ensures ['_', '_', b] == ['_'] + ['_', b]
    ensures [a, '_', '-', '_', b] == [a] + ['_', '-', '_', b]
    ensures [a, '_', '_', b] == [a] + (['_'] + ['_', b])
    ensures [a, '_', b] == [a] + ['_', b]
  {
  }

  /** The deletion step of `"<a>_-_<b>"`: only the dash goes. */
  lemma StripExample(a: char, b: char)
    requires Letter(a) && Letter(b)
    ensures StripDisallowed([a, '_', '-', '_', b]) == [a, '_', '_', b]
  {
    ExampleDisplays(a, b);
    assert StripDisallowed(['_', b]) == ['_', b] by {
      assert AllAllowed(['_', b]);
    }
    StripCons('-', ['_', b]);
    StripCons('_', ['-', '_', b]);
    StripCons(a, ['_', '-', '_', b]);
  }

  /** The collapse step of `"<a>__<b>"`: the two underscores become one. */
  lemma CollapseExample(a: char, b: char)
    requires Letter(a) && Letter(b)
    ensures CollapseUnderscores([a, '_', '_', b]) == [a, '_', b]
  {
    ExampleDisplays(a, b);
    assert CollapseUnderscores(['_', b]) == ['_', b] by {
      assert NoDoubleUnderscore(['_', b]);
    }
    CollapseCons('_', ['_', b]);
    CollapseCons(a, ['_'] + ['_', b]);
  }

  /** `"<a> - <b>"` cleans to `"<a>__<b>"` for lower-case letters `a`, `b`. */
  lemma CleanSpacedDash(a: char, b: char)
    requires Letter(a) && Letter(b)
    ensures Clean([a, ' ', '-', ' ', b]) == [a, '_', '_', b]
  {
    var t := [a, ' ', '-', ' ', b];
    assert Lower(t) == t;
    assert ReplaceChar(t, ' ', '_') == [a, '_', '-', '_', b];
    assert NoDoubleUnderscore([a, '_', '-', '_', b]);
    StripExample(a, b);
  }

  /** `"<a>__<b>"` cleans to `"<a>_<b>"`. */
  lemma CleanDoubledUnderscore(a: char, b: char)
    requires Letter(a) && Letter(b)
    ensures Clean([a, '_', '_', b]) == [a, '_', b]
  {
    var t := [a, '_', '_', b];
    assert Lower(t) == t;
    ReplaceCharAbsent(t, ' ', '_');
    CollapseExample(a, b);
    assert AllAllowed([a, '_', b]);
  }

  /** For any lower-case letters `a` and `b`, `"<a> - <b>"` cleans to
      `"<a>__<b>"`, which cleans again to `"<a>_<b>"`: the normaliser is not
      idempotent. */
  lemma CleanNotIdempotent(a: char, b: char)
    requires Letter(a) && Letter(b)
    ensures Clean([a, ' ', '-', ' ', b]) == [a, '_', '_', b]
    ensures Clean([a, '_', '_', b]) == [a, '_', b]
    ensures Clean(Clean([a, ' ', '-', ' ', b])) != Clean([a, ' ', '-', ' ', b])
  {
    CleanSpacedDash(a, b);
    CleanDoubledUnderscore(a, b);
  }
}

=== FILE: wav.dfy ===
/** `convert_to_wav`: maps an acquired `.mp3` path to its `.wav` path and runs
    the converter unless that file already exists.

    The wav path is `path.replace('songs', 'wav_songs').replace('.mp3', '.wav')`.
    The converter's exit status is never looked at, so the wav path is
    returned whether or not the conversion produced a file; the oracle
    `transcode(mp3, wav)` only says whether the file appears in the store. */
module Wav {
  import opened Options
  import opened Strings
  import Download
  import TitleClean

  const WavSongsPrefix: string := "datasets/wav_songs/"

  /** The value returned (`None` for Python's `None`), the store afterwards,
      and whether the converter was invoked. */
  datatype Conversion = Conversion(wavPath: Option<string>, store: Download.Store, converted: bool)

  /** The two chained `str.replace` calls. */
  function WavPath(path: string): string {
    ReplaceAll(ReplaceAll(path, "songs", "wav_songs"), ".mp3", ".wav")
  }

  /** `convert_to_wav(path)`; `None` and the empty string are the falsy paths. */
  function ConvertToWav(path: Option<string>, store: Download.Store,
                        transcode: (string, string) -> bool): (c: Conversion)
    ensures c.wavPath.None? <==> path.None? || path.value == ""
    ensures c.wavPath.Some? ==> c.wavPath.value == WavPath(path.value)
    ensures c.converted <==> c.wavPath.Some? && c.wavPath.value !in store
    ensures store <= c.store
    ensures c.wavPath.Some? ==> c.store <= store + {c.wavPath.value}
    ensures !c.converted ==> c.store == store
  {
    if path.None? || path.value == "" then Conversion(None, store, false)
    else
      var wav := WavPath(path.value);
      if wav in store then Conversion(Some(wav), store, false)
      else Conversion(Some(wav), if transcode(path.value, wav) then store + {wav} else store, true)
  }

  /** A second conversion after one that produced its file invokes nothing. */
  lemma ConvertTwice(path: Option<string>, store: Download.Store, transcode: (string, string) -> bool)
    ensures var first := ConvertToWav(path, store, transcode);
            first.wavPath.Some? && first.wavPath.value in first.store ==>
              ConvertToWav(path, first.store, transcode) == Conversion(first.wavPath, first.store, false)
  {
  }

  lemma NoSongsInDatasets(y: string)
    ensures forall i :: 0 <= i < 9 ==> !("songs" <= ("datasets/" + y)[i..])
  {
    var x := "datasets/";
    forall i | 0 <= i < 9
      ensures !("songs" <= (x + y)[i..])
    {
      var s := (x + y)[i..];
      if i == 4 {
        assert s[1] == (x + y)[5];
        assert (x + y)[5] == x[5];
        assert x[5] == 'e';
      } else if i == 7 {
        assert s[1] == (x + y)[8];
        assert (x + y)[8] == x[8];
        assert x[8] == '/';
        assert "songs"[1] == 'o';
      } else {
        assert s[0] == x[i];
      }
    }
  }

  /** Past the directory, an identifier without `songs` is left alone by the
      first replacement. */
  lemma FirstReplaceTail(id: string)
    requires !Occurs("songs", id)
    ensures ReplaceAll("/" + id + ".mp3", "songs", "wav_songs") == "/" + id + ".mp3"
  {
    NoOccurrenceAcross(id, ".mp3", "songs");
    forall i | 0 <= i < |"/" + id|
      ensures !("songs" <= (("/" + id) + ".mp3")[i..])
    {
      if i > 0 {
        assert (("/" + id) + ".mp3")[i..] == (id + ".mp3")[i - 1..];
      } else {
        assert (("/" + id) + ".mp3")[0] == '/';
      }
    }
    ReplaceAllSkip("/" + id, ".mp3", "songs", "wav_songs");
    assert !Occurs("songs", ".mp3");
    ReplaceAllAbsent(".mp3", "songs", "wav_songs");
  }

  /** The `songs` directory right after `datasets/` is the first occurrence. */
  lemma FirstReplaceHead(rest: string)
    ensures ReplaceAll("datasets/" + ("songs" + rest), "songs", "wav_songs")
            == "datasets/" + ("wav_songs" + ReplaceAll(rest, "songs", "wav_songs"))
  {
    NoSongsInDatasets("songs" + rest);
    ReplaceAllSkip("datasets/", "songs" + rest, "songs", "wav_songs");
    ReplaceAllHit(rest, "songs", "wav_songs");
  }

  /** `replace('songs', 'wav_songs')` only rewrites the directory name. */
  lemma FirstReplace(id: string)
    requires !Occurs("songs", id)
    ensures ReplaceAll(Download.SongPath(id), "songs", "wav_songs") == "datasets/wav_songs/" + id + ".mp3"
  {
    var rest := "/" + id + ".mp3";
    calc {
      ReplaceAll(Download.SongPath(id), "songs", "wav_songs");
      { SongPathSplits(id); }
      ReplaceAll("datasets/" + ("songs" + rest), "songs", "wav_songs");
      { FirstReplaceHead(rest); }
      "datasets/" + ("wav_songs" + ReplaceAll(rest, "songs", "wav_songs"));
      { FirstReplaceTail(id); }
      "datasets/" + ("wav_songs" + rest);
      { WavSongsJoins(id); }
      "datasets/wav_songs/" + id + ".mp3";
    }
  }

  lemma SongPathSplits(id: string)
    ensures Download.SongPath(id) == "datasets/" + ("songs" + ("/" + id + ".mp3"))
  {
  }

  lemma WavSongsJoins(id: string)
    ensures "datasets/" + ("wav_songs" + ("/" + id + ".mp3")) == "datasets/wav_songs/" + id + ".mp3"
  {
  }

  /** `replace('.mp3', '.wav')` only rewrites the extension of a dot-free name. */
  lemma SecondReplace(id: string)
    requires '.' !in id
    ensures ReplaceAll("datasets/wav_songs/" + id + ".mp3", ".mp3", ".wav") == WavSongsPrefix + id + ".wav"
  {
    var head := WavSongsPrefix + id;
    assert '.' !in head;
    ReplaceSuffix(head, ".mp3", ".wav");
  }

  /** For an identifier without `songs` and without `.`, the song file
      `datasets/songs/<id>.mp3` maps to `datasets/wav_songs/<id>.wav`. */
  lemma WavPathOfSongPath(id: string)
    requires !Occurs("songs", id) && '.' !in id
    ensures WavPath(Download.SongPath(id)) == WavSongsPrefix + id + ".wav"
  {
    FirstReplace(id);
    SecondReplace(id);
  }

  /** For every title whose identifier does not contain `songs`, the wav file
      sits in `datasets/wav_songs` under the same identifier. */
  lemma WavPathOfTitle(title: string)
    requires !Occurs("songs", TitleClean.Clean(title))
    ensures WavPath(Download.SongPath(TitleClean.Clean(title)))
            == WavSongsPrefix + TitleClean.Clean(title) + ".wav"
  {
    TitleClean.CleanAlphabet(title);
    WavPathOfSongPath(TitleClean.Clean(title));
  }
}
